=== FILE: README.md ===
# soap deserializer, modelled in Dafny

soap turns an untyped, JSON-like tree into a typed one by walking a tree of
schema nodes. Each `SchemaNode` has a type object (`Int`, `String`,
`Mapping`, `Sequence` or `Relationship`), a name, ordered children and a
`missing` policy. `Mapping` reads each child's value by the child's name.
`Sequence` applies its first child to every item. `Relationship` looks a
model up by name in the class-level registry `SchemaModel._models` and
deserializes with it, alone or as the element schema of a list. Any failure
raises `Invalid(msg, node, model)`.

The model is a pure function over immutable trees:

- `Values.Json` is the decoded input: `Null | Bool | Num | Str | Arr | Obj`.
- `Schemas.Schema` is a node, `Schemas.Kind` its type object.
- `Schemas.Registry` is the model registry, passed as a parameter.
- `Outcomes.Result` is the value or the `Invalid` failure, which keeps the
  message and the failing node's name.
- `Coerce` spells out Python's `int()`, `str()`, `dict()` and `list()` as
  soap relies on them.
- `Deserialization.Deserialize` is `SchemaNode.deserialize` with the
  dispatch to every type object. `Field`, `Fields` and `Elements` are the
  loops of `Mapping.deserialize` and `Sequence.deserialize`.

`missing = None` marks a required field (`soap/__init__.py:102`). `Null`
in the model's `missing` plays that role, so no field can default to null.
A null input value counts as absent (`soap/__init__.py:33-34`).

A `Relationship(model, uselist=False)` passes its input unchanged to the
target. So a self-referencing schema need not consume input: a `Sequence`
model whose element is itself, fed the string `"a"`, recurses until Python
raises RecursionError. The model therefore carries a recursion budget
`depth`. Each node visit spends one unit, and an exhausted budget gives the
failure `TooDeep`. `Scenarios.LoopExhaustsBudget` proves that this input
exhausts every budget. `Properties.DeserializeMono` proves that any other
result stays the same under every larger budget, so a result proved at
some budget is the result at Python's real limit too, provided that limit
is no smaller.

Two exceptions escape soap's `try` blocks: IndexError when a childless
`Sequence` meets its first item (`soap/__init__.py:57`), and KeyError when
a relationship names an unregistered model (`soap/__init__.py:78`). The
model returns them as the failure `Crash`, at the same point.
`Deserialization.Ready`, which asks that the schema and every registered
model be well formed (`Schemas.WellFormed`, `Schemas.WellFormedRegistry`),
is a sufficient condition for reaching neither; it is not a necessary one,
since a childless `Sequence` only ever given `[]` raises nothing.

Python's `str()` of a list or dict is its repr. The model does not spell
repr out: `Context.repr` is any function of the decoded value. A decoded
dict is an unordered `map`, so that function cannot depend on key order.

What the code does, and the model with it:

- `Mapping.deserialize` and `Sequence.deserialize` raise the first
  failure they meet and look at nothing after it
  (`soap/__init__.py:32-40`, `56-59`).
- An absent required field fails with the text `The field named '<name>'
  is missing.`, carrying the child node (`soap/__init__.py:40`).
- `SchemaModel.deserialize` renames the shared registered model to the
  node it is entered through (`soap/__init__.py:135`). The model views the
  target under the relationship node's name. Every entry through a
  relationship renames it again, so an error raised under it carries the
  relationship's name.

## Model

| member | source | states |
|---|---|---|
| Schemas.Register | soap/__init__.py:118-126 | registering a model makes it reachable under its name, replacing an earlier model of that name, and leaves every other entry unchanged |
| Schemas.Get | soap/__init__.py:108-112 | finds nothing exactly when no child has the name; otherwise returns the first child with that name |
| Coerce.ParseFormatRoundTrip | soap/__init__.py:12-24 | `int(str(n)) == n`: the decimal text `String` writes for an integer is read back by `Int` as that integer |
| Coerce.ParseIgnoresLeadingSpace | soap/__init__.py:12-16 | `int()` ignores leading white space |
| Coerce.PairsToMapKeys | soap/__init__.py:44-48 | `dict()` of a list of pairs has a string key exactly when some pair carries it |
| Coerce.PairsToMapLastWins | soap/__init__.py:44-48 | `dict()` of a list of pairs keeps the value of the last pair with a given key |
| Coerce.AsListAccepts | soap/__init__.py:62-64 | `list()` accepts a list, giving its items, a string, and of the dicts only the empty one (see Left out); it rejects every other value |
| Coerce.ListOfStringRoundTrip | soap/__init__.py:62-64 | `list()` of a string gives one one-character string per character, in order, and joining them gives the string back |
| Coerce.StringAsMapping | soap/__init__.py:44-48 | of all strings only the empty one converts to a mapping, and it gives the empty mapping |
| Deserialization.Deserialize | soap/__init__.py:11-85 | a success is never null; every `Invalid` carries one of the code's messages; no uncaught exception arises when the schema and the registry are well formed; `String` never fails and yields text; `Int` yields an integer; a successful `Mapping` has exactly its children's names as keys; a successful `Sequence` has as many items as `list()` gives |
| Deserialization.Field | soap/__init__.py:33-40 | one child of a mapping: a success is never null, a failure carries one of the code's messages, and a well-formed child raises no uncaught exception |
| Deserialization.Fields | soap/__init__.py:31-42 | the mapping loop's output keys are those already written plus every child's name |
| Deserialization.Elements | soap/__init__.py:55-61 | the sequence loop yields one value per input item |
| Properties.DeserializeMono | soap/__init__.py:104-106 | a result other than running out of budget is the same under every larger budget |
| Properties.FieldsSucceedIffAll | soap/__init__.py:32-40 | the mapping loop succeeds exactly when every child succeeds on the input |
| Properties.FieldsValues | soap/__init__.py:33-38 | each child's value is stored under its name; among children sharing a name the last one wins |
| Properties.FieldsFirstFailure | soap/__init__.py:32-40 | a failing mapping loop fails with the error of the first failing child in declaration order, all earlier children succeeding |
| Properties.FieldsStopAtFirstFailure | soap/__init__.py:32-40 | the first child that fails decides the error of the whole mapping, whatever the later children would do |
| Properties.ElementsPointwise | soap/__init__.py:55-61 | the sequence loop succeeds exactly when every item does, and item i of the output is the element schema applied to input item i |
| Properties.ElementsFirstFailure | soap/__init__.py:56-59 | a failing sequence loop fails with the error of its first failing item |
| Properties.IntKind | soap/__init__.py:11-16 | `Int` returns an integer unchanged, a boolean as 0 or 1, succeeds on a string exactly when `int()` parses it, and otherwise fails with 'SchemaNode is not an integer.' naming the node |
| Properties.IntReadsText | soap/__init__.py:13-14 | `Int` reads the decimal text of every integer back as that integer, so '0' gives 0 |
| Properties.StringKind | soap/__init__.py:19-24 | `String` never fails (soap's `except` branch is not modelled, see Left out); a string comes back unchanged, an integer as its decimal text which `Int` reads back, booleans and null as Python spells them |
| Properties.MappingOutput | soap/__init__.py:28-42 | on any input `dict()` accepts, a mapping succeeds exactly when every child does; the output's keys are exactly the children's names, so unknown input keys are dropped; a present non-null value is converted by its child; an absent or null one takes the child's default verbatim |
| Properties.MappingRejects | soap/__init__.py:44-48 | an input `dict()` rejects fails with 'SchemaNode is not a mapping type.' naming the node; such inputs are numbers, booleans, null, non-empty strings and lists not made of pairs |
| Properties.MissingRequiredField | soap/__init__.py:37-40 | the first child that is absent or null and has no default fails the whole mapping with "The field named '<name>' is missing." naming that child |
| Properties.SequenceOutput | soap/__init__.py:52-67 | a sequence fails with 'SchemaNode is not an interable type.' when `list()` rejects the input; otherwise it succeeds exactly when every item does, keeps length and order, and fails with the first failing item's error |
| Properties.SequenceWithoutChildren | soap/__init__.py:55-67 | a childless `Sequence` gives an empty list on an empty input, raises IndexError on a non-empty one, and fails with 'SchemaNode is not an interable type.' when `list()` rejects the input |
| Properties.RenameAgrees | soap/__init__.py:131-137 | renaming the model to the node it is reached through changes at most the node name an error carries |
| Properties.RelationshipSingle | soap/__init__.py:77-85 | a single relationship deserializes like the registered model on the same input; a mapping model given a non-mapping fails under the relationship's name |
| Properties.RelationshipUnregistered | soap/__init__.py:77-78 | a relationship to an unregistered model raises KeyError when reached, whatever the input |
| Properties.RelationshipList | soap/__init__.py:77-85 | a list relationship deserializes like a `Sequence` node, named as the relationship, whose element schema is the registered model |
| Properties.RelationshipListItems | soap/__init__.py:78-82 | a list relationship succeeds exactly when the model's `list()` (`Coerce.AsList`) accepts the input and every item deserializes under the model, and then yields those items' values in order |
| Properties.Idempotent | soap/__init__.py:31-61 | for schemas with distinct sibling names and no defaults, deserializing an output again gives it back unchanged |
| Properties.DefaultsAreNotConverted | soap/__init__.py:37-38 | a default is stored verbatim, not converted: a `String` field defaulting to 5 yields 5 on an empty input and "5" on that output |
| Scenarios.ImperativeRelationships | soap/tests/test_functional.py:272-333 | the imperatively built `TestSchema`/`ChildSchema` pair turns the test's payload into exactly the expected output, at every budget of 10 or more |
| Scenarios.NoRelationships | soap/tests/test_functional.py:62-82 | integer text is parsed, an unknown nested key is dropped, and the number 2 in a sequence of strings becomes "2", at every budget of 3 or more |
| Scenarios.SelfReference | soap/__init__.py:77-85 | a model related to itself reads a nested child by its own rules, the leaf's absent child taking its default, at every budget of 4 or more |
| Scenarios.LoopExhaustsBudget | soap/__init__.py:84-85 | a `Sequence` model whose element is itself through a single relationship, given "a", exhausts every recursion budget |
| Scenarios.MissingName | soap/__init__.py:39-40 | the test schema without a name fails with "The field named 'name' is missing." naming the name field, at every budget of 3 or more |

## Left out

- `Boolean`, `DateTime`/`iso8601`, preparers, validators, `Invalid.asdict`, `serialize` and `max_depth` appear only in the tests; the core file has no implementation of them.
- Error aggregation into a tree keyed by field name or item index, which `soap/tests/test_functional.py:200-219` expects from `Invalid.asdict`, is not in the code shown, which raises the first failure.
- The declarative front end (the metaclass that collects class attributes) is not part of this model; schemas are built directly from nodes.
- `Invalid.__str__` and the `model` argument of `Invalid` are not modelled; a failure keeps the message and the node's name.
- Python's recursion limit is replaced by the `depth` budget; its exact value is a parameter.
- The `model` argument soap threads through every call is not modelled; the registry is `Context.models`.
- The name a registered model carries from one call to the next is not modelled. A top-level `SchemaModel.deserialize(json)` keeps the name the last relationship gave it (`soap/__init__.py:132-135`), so its errors can carry that earlier call site's name; the model names the model itself.
- A registered model placed directly as a child of a mapping or as the element of a `Sequence`, not through a relationship, is renamed by every call (`soap/__init__.py:35`, `:59`, `:135`). As a mapping child, its value is looked up (`:33`), and a default is written (`:38`), under the name an earlier call left it; a present value is converted first, which renames the model to the mapping's own name, and is then written under that name (`:35`). As a `Sequence` element, every error it raises carries the `Sequence` node's name. The model reads, writes and reports every node under its declared name.
- Coerce.ToStr: `str()` of a list or dict is Python's repr, which the model leaves to `Context.repr`. That is a function of the decoded value, so it gives one text for `{"a": 1, "b": 2}` and `{"b": 2, "a": 1}`, where Python's repr follows insertion order. It also always succeeds, where Python's repr of a list or dict nested near the recursion limit raises RecursionError, which soap turns into 'SchemaNode is not an string.' (`soap/__init__.py:23-24`).
- Coerce.ToStr: does not model the limit of 4300 decimal digits that recent Python versions (3.11, and security releases of 3.7 to 3.10) put on `str()` of an int; past it `str()` raises and soap fails with 'SchemaNode is not an string.' (`soap/__init__.py:23-24`), which the model never does. The limit depends on the interpreter version and on `sys.set_int_max_str_digits`.
- Properties.StringKind: "never fails" holds only for integers below that limit and for lists and dicts whose repr stays within Python's recursion limit, for the reasons above; past either, soap fails with 'SchemaNode is not an string.'.
- Deserialization.Deserialize: "`String` never fails" holds only below the same two limits (integer digits, repr nesting), and its list of messages leaves out 'SchemaNode is not an string.' for that reason.
- Coerce.ParseInt: does not model the same 4300-digit limit on `int()` of a string, past which soap fails with 'SchemaNode is not an integer.'.
- Coerce.ParseInt: accepts ASCII digits only; Python's `int()` also accepts other Unicode decimal digits. Floats are not part of `Json`.
- Coerce.AsMapping: `dict()` of a list whose items are two-key dicts is treated as failing, because a `map` does not keep the insertion order those keys would be read in; keys that are not strings are dropped, since no schema looks them up.
- Coerce.AsList: `list()` of a non-empty dict gives its keys in insertion order; a `map` has no order, so the model rejects that input as not iterable, where soap iterates the keys.
- Coerce.AsListAccepts: rejects a non-empty dict, for the reason given for `Coerce.AsList`.
- Properties.SequenceOutput: a non-empty dict fails with 'SchemaNode is not an interable type.' in the model, where soap applies the element schema to its keys (see `Coerce.AsList`).
- Properties.RelationshipListItems: for the same reason a list relationship given a non-empty dict fails with 'SchemaNode is not an interable type.', where soap deserializes each key under the model.
- Properties.RelationshipSingle: agreement with the registered model is stated up to the node name an error carries, since the code reports errors under the relationship's name.
- Properties.RelationshipList: agreement with the `Sequence` wrapper is stated up to the node name an error carries, for the same reason.
- Properties.Idempotent: holds only for schemas without defaults and with distinct sibling names; defaults are copied verbatim, so a default of another kind is converted on a second pass (`Properties.DefaultsAreNotConverted`).

=== FILE: coerce.dfy ===
/** Python's built-in coercions as soap uses them: `int(x)` for the Int
    kind, `str(x)` for the String kind, `dict(x)` for Mapping and `list(x)`
    for Sequence. Each returns `None` where Python raises. */
module Coerce {
  import opened Outcomes
  import opened Values

  // ---------------------------------------------------------------------
  // Decimal text

  predicate IsDigit(c: char) {
    '0' <= c <= '9'
  }

  predicate AllDigits(s: string) {
    forall i | 0 <= i < |s| :: IsDigit(s[i])
  }

  function DigitChar(d: nat): (c: char)
    requires d < 10
    ensures IsDigit(c)
  {
    ('0' as int + d) as char
  }

  function DigitValue(c: char): (d: nat)
    requires IsDigit(c)
    ensures d < 10
  {
    c as int - '0' as int
  }

  /** The decimal digits of `n`, most significant first, without leading zeros. */
  function Digits(n: nat): (r: string)
    ensures |r| > 0 && AllDigits(r)
    decreases n
  {
    if n < 10 then [DigitChar(n)] else Digits(n / 10) + [DigitChar(n % 10)]
  }

  /** Python's `str(n)` for an int. */
  function FormatInt(n: int): string {
    if n < 0 then "-" + Digits(-n) else Digits(n)
  }

  /** The number a string of decimal digits denotes. */
  function DecimalValue(ds: string): nat
    requires AllDigits(ds)
  {
    if ds == [] then 0
    else DecimalValue(ds[..|ds| - 1]) * 10 + DigitValue(ds[|ds| - 1])
  }

  /** The characters Python's `int()` skips around a number: the ASCII
      white space `\t \n \v \f \r` and the space, and every non-ASCII
      character `str.isspace()` accepts (those are read as a space first).
      The ASCII separators U+001C to U+001F are not skipped. */
  predicate IsSpace(c: char) {
    var k := c as int;
    || 9 <= k <= 13 || k == 32
    || k == 0x85 || k == 0xA0 || k == 0x1680
    || 0x2000 <= k <= 0x200A
    || k == 0x2028 || k == 0x2029 || k == 0x202F || k == 0x205F || k == 0x3000
  }

  function TrimStart(s: string): string {
    if |s| > 0 && IsSpace(s[0]) then TrimStart(s[1..]) else s
  }

  function TrimEnd(s: string): string {
    if |s| > 0 && IsSpace(s[|s| - 1]) then TrimEnd(s[..|s| - 1]) else s
  }

  function Strip(s: string): string {
    TrimEnd(TrimStart(s))
  }

  /** Digits, possibly grouped by single underscores that sit between two
      digits, as base-10 `int()` accepts them. */
  predicate IsDigitGroups(t: string) {
    && |t| > 0
    && IsDigit(t[0])
    && forall i | 0 <= i < |t| :: IsDigit(t[i]) || (t[i] == '_' && i + 1 < |t| && IsDigit(t[i + 1]))
  }

  /** The digits of `t`, with the grouping underscores dropped. */
  function KeepDigits(t: string): (r: string)
    ensures AllDigits(r)
  {
    if t == [] then []
    else (if IsDigit(t[0]) then [t[0]] else []) + KeepDigits(t[1..])
  }

  /** Python's `int(s)` for a string: surrounding white space, an optional
      sign, then grouped decimal digits. */
  function ParseInt(s: string): Option<int> {
    var t := Strip(s);
    if |t| > 0 && (t[0] == '+' || t[0] == '-') then
      if IsDigitGroups(t[1..]) then
        var v: int := DecimalValue(KeepDigits(t[1..]));
        Some(if t[0] == '-' then -v else v)
      else None
    else if IsDigitGroups(t) then Some(DecimalValue(KeepDigits(t)))
    else None
  }

  lemma {:induction false} DecimalValueOfDigits(n: nat)
    ensures DecimalValue(Digits(n)) == n
    decreases n
  {
    if n >= 10 {
      var ds := Digits(n);
      assert ds[..|ds| - 1] == Digits(n / 10);
      DecimalValueOfDigits(n / 10);
    }
  }

  lemma {:induction false} KeepDigitsOfDigits(ds: string)
    requires AllDigits(ds)
    ensures KeepDigits(ds) == ds
  {
    if ds != [] {
      KeepDigitsOfDigits(ds[1..]);
    }
  }

  lemma TrimOfNumber(t: string)
    requires |t| > 0 && !IsSpace(t[0]) && !IsSpace(t[|t| - 1])
    ensures Strip(t) == t
  {
  }

  /** A non-empty run of digits reads as the number it denotes. */
  lemma ParseDigits(ds: string)
    requires |ds| > 0 && AllDigits(ds)
    ensures ParseInt(ds) == Some(DecimalValue(ds))
  {
    assert IsDigit(ds[0]) && IsDigit(ds[|ds| - 1]);
    TrimOfNumber(ds);
    KeepDigitsOfDigits(ds);
    assert IsDigitGroups(ds);
  }

  /** A minus sign followed by a non-empty run of digits reads as the
      negated number. */
  lemma ParseNegatedDigits(t: string)
    requires |t| > 1 && t[0] == '-' && AllDigits(t[1..])
    ensures ParseInt(t) == Some(-(DecimalValue(t[1..]) as int))
  {
    var ds := t[1..];
    assert Strip(t) == t by {
      assert t[|t| - 1] == ds[|ds| - 1];
      TrimOfNumber(t);
    }
    assert IsDigitGroups(ds) by {
      assert IsDigit(ds[0]);
    }
    KeepDigitsOfDigits(ds);
  }

  /** `int(str(n)) == n`: the text Python writes for an int reads back as it. */
  lemma ParseFormatRoundTrip(n: int)
    ensures ParseInt(FormatInt(n)) == Some(n)
  {
    var m: nat := if n < 0 then -n else n;
    DecimalValueOfDigits(m);
    if n < 0 {
      var t := FormatInt(n);
      assert t[0] == '-' && t[1..] == Digits(m);
      ParseNegatedDigits(t);
    } else {
      ParseDigits(Digits(m));
    }
  }

  /** Leading white space does not change what `int()` reads. */
  lemma {:induction false} ParseIgnoresLeadingSpace(w: string, s: string)
    requires forall i | 0 <= i < |w| :: IsSpace(w[i])
    ensures ParseInt(w + s) == ParseInt(s)
  {
    TrimStartSkipsSpace(w, s);
  }

  lemma {:induction false} TrimStartSkipsSpace(w: string, s: string)
    requires forall i | 0 <= i < |w| :: IsSpace(w[i])
    ensures TrimStart(w + s) == TrimStart(s)
  {
    if w != [] {
      assert (w + s)[0] == w[0] && IsSpace(w[0]);
      assert (w + s)[1..] == w[1..] + s;
      assert TrimStart(w + s) == TrimStart(w[1..] + s);
      TrimStartSkipsSpace(w[1..], s);
    } else {
      assert w + s == s;
    }
  }

  /** Python's `int(x)`: ints unchanged, booleans as 0 and 1, strings parsed. */
  function ToInt(j: Json): Option<int> {
    match j
    case Num(n) => Some(n)
    case Bool(b) => Some(if b then 1 else 0)
    case Str(s) => ParseInt(s)
    case _ => None
  }

  /** Python's `str(x)`. The text of a list or dict is Python's repr, which
      the model does not spell out: `repr` is any function of the decoded
      value, which for a dict has no key order. */
  function ToStr(repr: Json -> string, j: Json): string {
    match j
    case Str(s) => s
    case Num(n) => FormatInt(n)
    case Bool(b) => if b then "True" else "False"
    case Null => "None"
    case _ => repr(j)
  }

  // ---------------------------------------------------------------------
  // dict() and list()

  /** The key/value pair `dict()` reads from one item of an iterable: a
      two-element list whose key is hashable, or a two-character string. */
  function PairOf(item: Json): Option<(Json, Json)> {
    match item
    case Arr(kv) =>
      if |kv| == 2 && !kv[0].Arr? && !kv[0].Obj? then Some((kv[0], kv[1])) else None
    case Str(s) =>
      if |s| == 2 then Some((Str([s[0]]), Str([s[1]]))) else None
    case _ => None
  }

  predicate AllPairs(items: seq<Json>) {
    forall i | 0 <= i < |items| :: PairOf(items[i]).Some?
  }

  /** The string key of a pair item, if its key is a string. */
  function KeyOf(item: Json): Option<string> {
    match PairOf(item)
    case Some((Str(k), _)) => Some(k)
    case _ => None
  }

  /** No later item carries the same string key as item `i`. */
  predicate LastWithKey(items: seq<Json>, i: int)
    requires 0 <= i < |items|
  {
    forall j | i < j < |items| :: KeyOf(items[j]) != KeyOf(items[i])
  }

  /** `dict(pairs)` restricted to its string keys, the only ones a schema
      looks up; later pairs overwrite earlier ones. */
  function PairsToMap(items: seq<Json>): map<string, Json>
    requires AllPairs(items)
  {
    if items == [] then map[]
    else
      var last := items[|items| - 1];
      var m0 := PairsToMap(items[..|items| - 1]);
      match KeyOf(last)
      case Some(k) => m0[k := PairOf(last).value.1]
      case None => m0
  }

  /** A key is present in `dict(pairs)` exactly when some pair carries it. */
  lemma {:induction false} PairsToMapKeys(items: seq<Json>, k: string)
    requires AllPairs(items)
    ensures k in PairsToMap(items) <==> exists i | 0 <= i < |items| :: KeyOf(items[i]) == Some(k)
  {
    if items != [] {
      var init := items[..|items| - 1];
      assert forall i | 0 <= i < |init| :: init[i] == items[i];
      PairsToMapKeys(init, k);
      if KeyOf(items[|items| - 1]) != Some(k) && exists i | 0 <= i < |items| :: KeyOf(items[i]) == Some(k) {
        var i :| 0 <= i < |items| && KeyOf(items[i]) == Some(k);
        assert i < |init|;
      }
    }
  }

  /** The value under a key is that of the last pair carrying the key. */
  lemma {:induction false} PairsToMapLastWins(items: seq<Json>, i: int)
    requires AllPairs(items)
    requires 0 <= i < |items| && KeyOf(items[i]).Some? && LastWithKey(items, i)
    ensures KeyOf(items[i]).value in PairsToMap(items)
    ensures PairsToMap(items)[KeyOf(items[i]).value] == PairOf(items[i]).value.1
  {
    var init := items[..|items| - 1];
    assert forall j | 0 <= j < |init| :: init[j] == items[j];
    if i < |items| - 1 {
      PairsToMapLastWins(init, i);
    }
  }

  /** The characters of a string, each as a one-character string, as
      `list(s)` produces them. */
  function Chars(s: string): (r: seq<Json>)
    ensures |r| == |s|
    ensures forall i | 0 <= i < |s| :: r[i] == Str([s[i]])
  {
    seq(|s|, i requires 0 <= i < |s| => Str([s[i]]))
  }

  /** Python's `dict(x)`: a dict is copied, an iterable of pairs is folded
      into one (a string iterates its characters, so only "" succeeds),
      anything else raises. */
  function AsMapping(j: Json): Option<map<string, Json>> {
    match j
    case Obj(m) => Some(m)
    case Arr(items) => if AllPairs(items) then Some(PairsToMap(items)) else None
    case Str(s) => if AllPairs(Chars(s)) then Some(PairsToMap(Chars(s))) else None
    case _ => None
  }

  /** Python's `list(x)`: a list is copied, a string is split into its
      characters, an empty dict gives the empty list. */
  function AsList(j: Json): Option<seq<Json>> {
    match j
    case Arr(items) => Some(items)
    case Str(s) => Some(Chars(s))
    case Obj(m) => if |m| == 0 then Some([]) else None
    case _ => None
  }

  /** The inputs `list()` accepts: a list, a string, and of the dicts only
      the empty one (see `AsList`). */
  lemma AsListAccepts(j: Json)
    ensures AsList(j).Some? <==> j.Arr? || j.Str? || (j.Obj? && |j.fields| == 0)
    ensures j.Arr? ==> AsList(j) == Some(j.items)
  {
  }

  /** The text of a list of strings laid end to end, `"".join(items)`;
      an item that is not a string contributes nothing. */
  function Join(items: seq<Json>): string {
    if items == [] then ""
    else (if items[0].Str? then items[0].s else "") + Join(items[1..])
  }

  /** `list()` of a string splits it into one-character strings, and
      joining them gives the string back: `"".join(list(s)) == s`. */
  lemma {:induction false} ListOfStringRoundTrip(s: string)
    ensures AsList(Str(s)).Some?
    ensures |AsList(Str(s)).value| == |s|
    ensures forall i | 0 <= i < |s| :: AsList(Str(s)).value[i] == Str([s[i]])
    ensures Join(AsList(Str(s)).value) == s
  {
    if s != [] {
      assert Chars(s)[0] == Str([s[0]]);
      assert Chars(s)[1..] == Chars(s[1..]);
      ListOfStringRoundTrip(s[1..]);
      assert s == [s[0]] + s[1..];
    }
  }

  /** Of the strings only the empty one is a mapping for `dict()`, and it
      is the empty mapping. */
  lemma StringAsMapping(s: string)
    ensures AsMapping(Str(s)).Some? <==> s == ""
    ensures s == "" ==> AsMapping(Str(s)) == Some(map[])
  {
    if s != "" {
      assert Chars(s)[0] == Str([s[0]]);
      assert PairOf(Chars(s)[0]).None?;
    }
  }
}

=== FILE: deserialization.dfy ===
/** The deserializer: `SchemaNode.deserialize` dispatching to the type
    objects `Int`, `String`, `Mapping`, `Sequence` and `Relationship`.

    It is a pure function of a context (the registry and the text Python
    gives lists and dicts under `str()`), a recursion budget, a schema and
    an input tree. Each call of `Deserialize` spends one unit of the budget;
    an exhausted budget stands for Python's RecursionError, which soap
    reaches on self-referencing schemas whose input does not shrink. The
    exceptions soap does not catch (IndexError on a childless `Sequence`,
    KeyError on an unregistered model) are `Crash` failures, raised where
    soap raises them. */
module Deserialization {
  import opened Outcomes
  import opened Values
  import opened Coerce
  import opened Schemas

  /** The registered models, and the text `str()` gives a list or dict:
      any function of the decoded value, in which a dict has no key order. */
  datatype Context = Context(models: Registry, repr: Json -> string)

  const NotAnInteger := "SchemaNode is not an integer."
  const NotAMapping := "SchemaNode is not a mapping type."
  const NotIterable := "SchemaNode is not an interable type."

  function MissingField(name: string): string {
    "The field named '" + name + "' is missing."
  }

  /** The messages soap's deserializer raises. */
  ghost predicate KnownMessage(m: string) {
    m == NotAnInteger || m == NotAMapping || m == NotIterable || exists n :: m == MissingField(n)
  }

  /** The schema and every registered model are well formed: a sufficient
      condition for never reaching IndexError or KeyError, not a necessary
      one (a childless `Sequence` only ever given `[]` raises nothing). */
  predicate Ready(ctx: Context, s: Schema) {
    WellFormedRegistry(ctx.models) && WellFormed(ctx.models, s)
  }

  /** The input under a child's name counts as absent when it is missing
      or null. */
  predicate Present(c: Schema, fields: map<string, Json>) {
    c.name in fields && fields[c.name] != Null
  }

  /** No later sibling shares the name of child `i`, so its value is the
      one a mapping keeps. */
  predicate LastNamed(cs: seq<Schema>, i: int)
    requires 0 <= i < |cs|
  {
    forall k | i < k < |cs| :: cs[k].name != cs[i].name
  }

  function Deserialize(ctx: Context, depth: nat, s: Schema, j: Json): (r: Result<Json>)
    ensures r.Ok? ==> r.value != Null
    ensures r.Err? && r.error.Invalid? ==> KnownMessage(r.error.msg)
    ensures Ready(ctx, s) ==> NoCrash(r)
    ensures s.kind.String? && depth > 0 ==> r.Ok? && r.value.Str?
    ensures s.kind.Int? && r.Ok? ==> r.value.Num?
    ensures s.kind.Mapping? && r.Ok? ==> r.value.Obj? && r.value.fields.Keys == Names(s.children)
    ensures s.kind.Sequence? && r.Ok? ==>
      r.value.Arr? && AsList(j).Some? && |r.value.items| == |AsList(j).value|
    decreases depth, 0, 0
  {
    if depth == 0 then Err(TooDeep)
    else
      match s.kind
      case Int =>
        (match ToInt(j)
         case Some(n) => Ok(Num(n))
         case None => Err(Invalid(NotAnInteger, s.name)))
      case String => Ok(Str(ToStr(ctx.repr, j)))
      case Mapping =>
        (match AsMapping(j)
         case None => Err(Invalid(NotAMapping, s.name))
         case Some(fields) =>
           match Fields(ctx, depth - 1, s.children, fields, map[])
           case Ok(m) => Ok(Obj(m))
           case Err(e) => Err(e))
      case Sequence =>
        (match AsList(j)
         case None => Err(Invalid(NotIterable, s.name))
         case Some(items) =>
           // `children[0]` is only read once there is an item.
           if |s.children| == 0 then
             if items == [] then Ok(Arr([])) else Err(Crash("IndexError"))
           else
             assert s.children[0] in s.children;
             match Elements(ctx, depth - 1, s.children[0], items)
             case Ok(vs) => Ok(Arr(vs))
             case Err(e) => Err(e))
      case Relationship(target, uselist) =>
        if target !in ctx.models then Err(Crash("KeyError"))
        else
          // The registered model is viewed under this node's name, as soap
          // renames the model to the node it is reached through.
          var view := ctx.models[target].(name := s.name);
          if uselist then Deserialize(ctx, depth - 1, Node(Sequence, s.name, [view], Null), j)
          else Deserialize(ctx, depth - 1, view, j)
  }

  /** One child of a mapping: a present value is deserialized by the
      child, an absent one takes the default verbatim, and a required
      absent one fails naming the child. */
  function Field(ctx: Context, depth: nat, c: Schema, fields: map<string, Json>): (r: Result<Json>)
    ensures r.Ok? ==> r.value != Null
    ensures r.Err? && r.error.Invalid? ==> KnownMessage(r.error.msg)
    ensures Ready(ctx, c) ==> NoCrash(r)
    decreases depth, 0, 1
  {
    if Present(c, fields) then Deserialize(ctx, depth, c, fields[c.name])
    else if !Required(c) then Ok(c.missing)
    else Err(Invalid(MissingField(c.name), c.name))
  }

  /** The loop of `Mapping.deserialize` over the children in order,
      writing each child's value under its name into `acc` and stopping at
      the first child that fails. */
  function Fields(ctx: Context, depth: nat, cs: seq<Schema>, fields: map<string, Json>,
                  acc: map<string, Json>): (r: Result<map<string, Json>>)
    ensures r.Ok? ==> r.value.Keys == acc.Keys + Names(cs)
    ensures r.Err? && r.error.Invalid? ==> KnownMessage(r.error.msg)
    ensures WellFormedRegistry(ctx.models) && (forall c | c in cs :: WellFormed(ctx.models, c)) ==> NoCrash(r)
    decreases depth, 1, |cs|
  {
    if cs == [] then Ok(acc)
    else
      assert cs[0] in cs;
      match Field(ctx, depth, cs[0], fields)
      case Err(e) => Err(e)
      case Ok(v) => Fields(ctx, depth, cs[1..], fields, acc[cs[0].name := v])
  }

  /** The loop of `Sequence.deserialize`: every element through the one
      element schema, in order, stopping at the first failure. */
  function Elements(ctx: Context, depth: nat, elem: Schema, items: seq<Json>): (r: Result<seq<Json>>)
    ensures r.Ok? ==> |r.value| == |items|
    ensures r.Err? && r.error.Invalid? ==> KnownMessage(r.error.msg)
    ensures Ready(ctx, elem) ==> NoCrash(r)
    decreases depth, 1, |items|
  {
    if items == [] then Ok([])
    else
      match Deserialize(ctx, depth, elem, items[0])
      case Err(e) => Err(e)
      case Ok(v) =>
        match Elements(ctx, depth, elem, items[1..])
        case Err(e) => Err(e)
        case Ok(vs) => Ok([v] + vs)
  }
}

=== FILE: outcomes.dfy ===
/** The deserializer's result and failure types.

    soap signals a failed conversion by raising `Invalid(msg, node, model)`;
    the model returns it as a value instead. A deserialization can also stop
    on a Python exception soap does not catch (indexing the children of a
    childless `Sequence`, looking up an unregistered model), or by running
    past Python's recursion limit, modelled by the `TooDeep` failure of an
    exhausted recursion budget.
 */
module Outcomes {

  datatype Option<+T> = None | Some(value: T)

  /** Why a deserialization did not produce a value. */
  datatype Failure =
    | Invalid(msg: string, node: string)  // the node is identified by its name
    | Crash(exception: string)            // "IndexError" or "KeyError", uncaught
    | TooDeep                             // the recursion budget ran out

  datatype Result<+T> = Ok(value: T) | Err(error: Failure)

  /** The result is not an uncaught Python exception. */
  predicate NoCrash<T>(r: Result<T>) {
    !(r.Err? && r.error.Crash?)
  }

  /** The result with the node name of an `Invalid` failure erased. */
  function Forget<T>(r: Result<T>): Result<T> {
    match r
    case Err(Invalid(msg, _)) => Err(Invalid(msg, ""))
    case _ => r
  }

  /** Two results agree on success, value and message; only the name of
      the node an error is attributed to may differ. */
  predicate SameUpToNode<T(==)>(a: Result<T>, b: Result<T>) {
    Forget(a) == Forget(b)
  }
}

=== FILE: properties.dfy ===
/** What soap's deserializer promises, stated about the model. */
module Properties {
  import opened Outcomes
  import opened Values
  import opened Coerce
  import opened Schemas
  import opened Deserialization

  // ---------------------------------------------------------------------
  // The recursion budget

  /** A result reached within a budget, other than running out of it, is
      the result under every larger budget too; so it is what soap computes
      whenever Python's recursion limit leaves room for it. */
  lemma {:induction false} DeserializeMono(ctx: Context, d: nat, e: nat, s: Schema, j: Json)
    requires d <= e && Deserialize(ctx, d, s, j) != Err(TooDeep)
    ensures Deserialize(ctx, e, s, j) == Deserialize(ctx, d, s, j)
    decreases d, 0, 0
  {
    match s.kind
    case Int =>
    case String =>
    case Mapping =>
      if AsMapping(j).Some? {
        FieldsMono(ctx, d - 1, e - 1, s.children, AsMapping(j).value, map[]);
      }
    case Sequence =>
      if AsList(j).Some? && |s.children| > 0 {
        ElementsMono(ctx, d - 1, e - 1, s.children[0], AsList(j).value);
      }
    case Relationship(target, uselist) =>
      if target in ctx.models {
        var view := ctx.models[target].(name := s.name);
        if uselist {
          DeserializeMono(ctx, d - 1, e - 1, Node(Sequence, s.name, [view], Null), j);
        } else {
          DeserializeMono(ctx, d - 1, e - 1, view, j);
        }
      }
  }

  lemma {:induction false} FieldMono(ctx: Context, d: nat, e: nat, c: Schema, fields: map<string, Json>)
    requires d <= e && Field(ctx, d, c, fields) != Err(TooDeep)
    ensures Field(ctx, e, c, fields) == Field(ctx, d, c, fields)
    decreases d, 0, 1
  {
    if Present(c, fields) {
      DeserializeMono(ctx, d, e, c, fields[c.name]);
    }
  }

  lemma {:induction false} FieldsMono(ctx: Context, d: nat, e: nat, cs: seq<Schema>, fields: map<string, Json>,
                                      acc: map<string, Json>)
    requires d <= e && Fields(ctx, d, cs, fields, acc) != Err(TooDeep)
    ensures Fields(ctx, e, cs, fields, acc) == Fields(ctx, d, cs, fields, acc)
    decreases d, 1, |cs|
  {
    if cs != [] {
      var h := Field(ctx, d, cs[0], fields);
      FieldMono(ctx, d, e, cs[0], fields);
      if h.Ok? {
        FieldsMono(ctx, d, e, cs[1..], fields, acc[cs[0].name := h.value]);
      }
    }
  }

  lemma {:induction false} ElementsMono(ctx: Context, d: nat, e: nat, elem: Schema, items: seq<Json>)
    requires d <= e && Elements(ctx, d, elem, items) != Err(TooDeep)
    ensures Elements(ctx, e, elem, items) == Elements(ctx, d, elem, items)
    decreases d, 1, |items|
  {
    if items != [] {
      var h := Deserialize(ctx, d, elem, items[0]);
      DeserializeMono(ctx, d, e, elem, items[0]);
      if h.Ok? {
        ElementsMono(ctx, d, e, elem, items[1..]);
      }
    }
  }

  // ---------------------------------------------------------------------
  // The mapping loop

  /** A mapping succeeds exactly when every child does. */
  lemma {:induction false} FieldsSucceedIffAll(ctx: Context, depth: nat, cs: seq<Schema>,
                                               fields: map<string, Json>, acc: map<string, Json>)
    ensures Fields(ctx, depth, cs, fields, acc).Ok? <==>
            forall i | 0 <= i < |cs| :: Field(ctx, depth, cs[i], fields).Ok?
    decreases |cs|
  {
    if cs != [] {
      assert cs[0] in cs;
      var h := Field(ctx, depth, cs[0], fields);
      if h.Ok? {
        FieldsSucceedIffAll(ctx, depth, cs[1..], fields, acc[cs[0].name := h.value]);
        assert forall i | 1 <= i < |cs| :: cs[i] == cs[1..][i - 1];
      }
    }
  }

  /** Names after the first child that the first child does not share. */
  lemma LastNamedHead(cs: seq<Schema>)
    requires cs != [] && LastNamed(cs, 0)
    ensures cs[0].name !in Names(cs[1..])
  {
    NamesMember(cs[1..], cs[0].name);
  }

  /** On success, what was already collected under names no child uses
      is kept. */
  lemma {:induction false} FieldsKeepOthers(ctx: Context, depth: nat, cs: seq<Schema>,
                                            fields: map<string, Json>, acc: map<string, Json>, k: string)
    requires Fields(ctx, depth, cs, fields, acc).Ok?
    requires k in acc && k !in Names(cs)
    ensures Fields(ctx, depth, cs, fields, acc).value[k] == acc[k]
    decreases |cs|
  {
    if cs != [] {
      assert cs[0] in cs;
      var h := Field(ctx, depth, cs[0], fields);
      FieldsKeepOthers(ctx, depth, cs[1..], fields, acc[cs[0].name := h.value], k);
    }
  }

  /** On success every child's value sits under its name; when several
      children share a name the last one wins, as the dictionary
      assignment overwrites. */
  lemma {:induction false} FieldsValues(ctx: Context, depth: nat, cs: seq<Schema>,
                                        fields: map<string, Json>, acc: map<string, Json>, i: int)
    requires Fields(ctx, depth, cs, fields, acc).Ok?
    requires 0 <= i < |cs| && LastNamed(cs, i)
    ensures cs[i].name in Fields(ctx, depth, cs, fields, acc).value
    ensures Field(ctx, depth, cs[i], fields) == Ok(Fields(ctx, depth, cs, fields, acc).value[cs[i].name])
    decreases |cs|
  {
    assert cs[0] in cs && cs[i] in cs;
    var h := Field(ctx, depth, cs[0], fields);
    var rest := cs[1..];
    var acc' := acc[cs[0].name := h.value];
    if i == 0 {
      LastNamedHead(cs);
      FieldsKeepOthers(ctx, depth, rest, fields, acc', cs[0].name);
    } else {
      assert rest[i - 1] == cs[i];
      assert LastNamed(rest, i - 1);
      FieldsValues(ctx, depth, rest, fields, acc', i - 1);
    }
  }

  /** A failing mapping fails with the error of its first failing child,
      in declaration order; the children after it are not looked at. */
  lemma {:induction false} FieldsFirstFailure(ctx: Context, depth: nat, cs: seq<Schema>,
                                              fields: map<string, Json>, acc: map<string, Json>)
    requires Fields(ctx, depth, cs, fields, acc).Err?
    ensures exists i | 0 <= i < |cs| ::
      && (forall k | 0 <= k < i :: Field(ctx, depth, cs[k], fields).Ok?)
      && Field(ctx, depth, cs[i], fields).Err?
      && Fields(ctx, depth, cs, fields, acc).error == Field(ctx, depth, cs[i], fields).error
    decreases |cs|
  {
    assert cs[0] in cs;
    var h := Field(ctx, depth, cs[0], fields);
    if h.Ok? {
      var rest := cs[1..];
      FieldsFirstFailure(ctx, depth, rest, fields, acc[cs[0].name := h.value]);
      var i :| 0 <= i < |rest| &&
        (forall k | 0 <= k < i :: Field(ctx, depth, rest[k], fields).Ok?) &&
        Field(ctx, depth, rest[i], fields).Err? &&
        Fields(ctx, depth, rest, fields, acc[cs[0].name := h.value]).error == Field(ctx, depth, rest[i], fields).error;
      assert forall k | 1 <= k <= i + 1 :: cs[k] == rest[k - 1];
      assert forall k | 0 <= k < i + 1 :: Field(ctx, depth, cs[k], fields).Ok?;
    } else {
      assert Fields(ctx, depth, cs, fields, acc).error == h.error;
    }
  }

  /** The child that fails first, in declaration order, decides the
      error of the whole loop. */
  lemma {:induction false} FieldsStopAtFirstFailure(ctx: Context, depth: nat, cs: seq<Schema>,
                                                    fields: map<string, Json>, acc: map<string, Json>, i: int)
    requires 0 <= i < |cs|
    requires forall k | 0 <= k < i :: Field(ctx, depth, cs[k], fields).Ok?
    requires Field(ctx, depth, cs[i], fields).Err?
    ensures Fields(ctx, depth, cs, fields, acc) == Err(Field(ctx, depth, cs[i], fields).error)
    decreases i
  {
    assert cs[0] in cs;
    if i > 0 {
      var h := Field(ctx, depth, cs[0], fields);
      assert forall k | 0 <= k < i - 1 :: cs[1..][k] == cs[k + 1];
      FieldsStopAtFirstFailure(ctx, depth, cs[1..], fields, acc[cs[0].name := h.value], i - 1);
    }
  }

  // ---------------------------------------------------------------------
  // The sequence loop

  /** The sequence loop succeeds exactly when every element does, and
      then holds every element's value at that element's position. */
  lemma {:induction false} ElementsPointwise(ctx: Context, depth: nat, elem: Schema, items: seq<Json>)
    ensures Elements(ctx, depth, elem, items).Ok? <==>
            forall i | 0 <= i < |items| :: Deserialize(ctx, depth, elem, items[i]).Ok?
    ensures Elements(ctx, depth, elem, items).Ok? ==>
            forall i | 0 <= i < |items| :: Deserialize(ctx, depth, elem, items[i]) == Ok(Elements(ctx, depth, elem, items).value[i])
    decreases |items|
  {
    if items != [] {
      var rest := items[1..];
      ElementsPointwise(ctx, depth, elem, rest);
      assert forall i | 1 <= i < |items| :: items[i] == rest[i - 1];
      if Deserialize(ctx, depth, elem, items[0]).Ok? && Elements(ctx, depth, elem, rest).Ok? {
        var v := Deserialize(ctx, depth, elem, items[0]).value;
        var vs := Elements(ctx, depth, elem, rest).value;
        assert Elements(ctx, depth, elem, items).value == [v] + vs;
      }
    }
  }

  /** A failing sequence fails with the error of its first failing element. */
  lemma {:induction false} ElementsFirstFailure(ctx: Context, depth: nat, elem: Schema, items: seq<Json>)
    requires Elements(ctx, depth, elem, items).Err?
    ensures exists i | 0 <= i < |items| ::
      && (forall k | 0 <= k < i :: Deserialize(ctx, depth, elem, items[k]).Ok?)
      && Deserialize(ctx, depth, elem, items[i]).Err?
      && Elements(ctx, depth, elem, items).error == Deserialize(ctx, depth, elem, items[i]).error
    decreases |items|
  {
    var h := Deserialize(ctx, depth, elem, items[0]);
    if h.Ok? {
      var rest := items[1..];
      ElementsFirstFailure(ctx, depth, elem, rest);
      var i :| 0 <= i < |rest| &&
        (forall k | 0 <= k < i :: Deserialize(ctx, depth, elem, rest[k]).Ok?) &&
        Deserialize(ctx, depth, elem, rest[i]).Err? &&
        Elements(ctx, depth, elem, rest).error == Deserialize(ctx, depth, elem, rest[i]).error;
      assert forall k | 1 <= k <= i + 1 :: items[k] == rest[k - 1];
      assert forall k | 0 <= k < i + 1 :: Deserialize(ctx, depth, elem, items[k]).Ok?;
    }
  }

  // ---------------------------------------------------------------------
  // Scalar kinds

  /** `Int`: an integer comes back unchanged, a boolean as 0 or 1, a
      string is parsed as decimal text; anything else fails naming the
      node. */
  lemma IntKind(ctx: Context, depth: nat, s: Schema, j: Json)
    requires s.kind == Int && depth > 0
    ensures j.Num? ==> Deserialize(ctx, depth, s, j) == Ok(j)
    ensures j.Bool? ==> Deserialize(ctx, depth, s, j) == Ok(Num(if j.b then 1 else 0))
    ensures j.Str? ==> (Deserialize(ctx, depth, s, j).Ok? <==> ParseInt(j.s).Some?)
    ensures j.Str? && ParseInt(j.s).Some? ==> Deserialize(ctx, depth, s, j) == Ok(Num(ParseInt(j.s).value))
    ensures j.Null? || j.Arr? || j.Obj? ==> Deserialize(ctx, depth, s, j) == Err(Invalid(NotAnInteger, s.name))
    ensures Deserialize(ctx, depth, s, j).Err? ==> Deserialize(ctx, depth, s, j).error == Invalid(NotAnInteger, s.name)
  {
  }

  /** `Int` reads the decimal text of every integer back as that integer,
      so `"0"` gives 0. */
  lemma IntReadsText(ctx: Context, depth: nat, s: Schema, n: int)
    requires s.kind == Int && depth > 0
    ensures Deserialize(ctx, depth, s, Str(FormatInt(n))) == Ok(Num(n))
  {
    ParseFormatRoundTrip(n);
  }

  /** `String` never fails: a string comes back unchanged, an int as its
      decimal text (which `Int` reads back), booleans and null as Python
      spells them. */
  lemma StringKind(ctx: Context, depth: nat, s: Schema, t: Schema, j: Json)
    requires s.kind == String && depth > 0
    requires t.kind == Int
    ensures Deserialize(ctx, depth, s, j).Ok?
    ensures j.Str? ==> Deserialize(ctx, depth, s, j) == Ok(j)
    ensures j.Num? ==> Deserialize(ctx, depth, s, j) == Ok(Str(FormatInt(j.n)))
    ensures j.Num? ==> Deserialize(ctx, depth, t, Deserialize(ctx, depth, s, j).value) == Ok(j)
    ensures j.Bool? ==> Deserialize(ctx, depth, s, j) == Ok(Str(if j.b then "True" else "False"))
    ensures j.Null? ==> Deserialize(ctx, depth, s, j) == Ok(Str("None"))
  {
    if j.Num? {
      IntReadsText(ctx, depth, t, j.n);
    }
  }

  // ---------------------------------------------------------------------
  // Mapping

  /** `Mapping` on an input `dict()` accepts: it succeeds exactly when
      every child does; the output has exactly the children's names as
      keys (input keys no child names are dropped); a present, non-null
      input value is converted by its child, an absent or null one takes
      the child's default verbatim. */
  lemma {:induction false} MappingOutput(ctx: Context, depth: nat, s: Schema, j: Json, fields: map<string, Json>)
    requires s.kind == Mapping && depth > 0
    requires AsMapping(j) == Some(fields)
    ensures Deserialize(ctx, depth, s, j).Ok? <==>
            forall i | 0 <= i < |s.children| :: Field(ctx, depth - 1, s.children[i], fields).Ok?
    ensures Deserialize(ctx, depth, s, j).Ok? ==>
      && Deserialize(ctx, depth, s, j).value.Obj?
      && Deserialize(ctx, depth, s, j).value.fields.Keys == Names(s.children)
    ensures Deserialize(ctx, depth, s, j).Ok? ==>
      forall i | 0 <= i < |s.children| && LastNamed(s.children, i) ::
        var c := s.children[i];
        var out := Deserialize(ctx, depth, s, j).value.fields;
        && c.name in out
        && (Present(c, fields) ==> Deserialize(ctx, depth - 1, c, fields[c.name]) == Ok(out[c.name]))
        && (!Present(c, fields) ==> !Required(c) && out[c.name] == c.missing)
  {
    var cs := s.children;
    FieldsSucceedIffAll(ctx, depth - 1, cs, fields, map[]);
    if Deserialize(ctx, depth, s, j).Ok? {
      forall i | 0 <= i < |cs| && LastNamed(cs, i)
        ensures var c := cs[i];
                var out := Deserialize(ctx, depth, s, j).value.fields;
                && c.name in out
                && (Present(c, fields) ==> Deserialize(ctx, depth - 1, c, fields[c.name]) == Ok(out[c.name]))
                && (!Present(c, fields) ==> !Required(c) && out[c.name] == c.missing)
      {
        FieldsValues(ctx, depth - 1, cs, fields, map[], i);
      }
    }
  }

  /** An input `dict()` rejects (a number, a boolean, null, a non-empty
      string, a list that is not of pairs) fails naming the mapping node. */
  lemma MappingRejects(ctx: Context, depth: nat, s: Schema, j: Json)
    requires s.kind == Mapping && depth > 0
    requires AsMapping(j).None?
    ensures Deserialize(ctx, depth, s, j) == Err(Invalid(NotAMapping, s.name))
    ensures j.Num? || j.Bool? || j.Null? || (j.Str? && j.s != "") || (j.Arr? && !AllPairs(j.items))
  {
    if j.Str? {
      StringAsMapping(j.s);
    }
  }

  /** The first child, in declaration order, whose value is absent or
      null and which has no default fails the whole mapping with
      "The field named '<name>' is missing." carrying that child. */
  lemma MissingRequiredField(ctx: Context, depth: nat, s: Schema, j: Json, fields: map<string, Json>, i: int)
    requires s.kind == Mapping && depth > 0
    requires AsMapping(j) == Some(fields)
    requires 0 <= i < |s.children|
    requires forall k | 0 <= k < i :: Field(ctx, depth - 1, s.children[k], fields).Ok?
    requires !Present(s.children[i], fields) && Required(s.children[i])
    ensures Deserialize(ctx, depth, s, j) ==
            Err(Invalid(MissingField(s.children[i].name), s.children[i].name))
  {
    var cs := s.children;
    assert cs[i] in cs;
    FieldsStopAtFirstFailure(ctx, depth - 1, cs, fields, map[], i);
  }

  // ---------------------------------------------------------------------
  // Sequence

  /** `Sequence` applies its element schema (`children[0]`) to every item
      `list()` yields: it succeeds exactly when every item does, the output
      keeps length and order, and a failure is the first failing item's. An
      input `list()` rejects fails naming the node. */
  lemma {:induction false} SequenceOutput(ctx: Context, depth: nat, s: Schema, j: Json)
    requires s.kind == Sequence && |s.children| > 0 && depth > 0
    ensures AsList(j).None? ==> Deserialize(ctx, depth, s, j) == Err(Invalid(NotIterable, s.name))
    ensures AsList(j).Some? ==>
      var items := AsList(j).value;
      && (Deserialize(ctx, depth, s, j).Ok? <==>
            forall i | 0 <= i < |items| :: Deserialize(ctx, depth - 1, s.children[0], items[i]).Ok?)
      && (Deserialize(ctx, depth, s, j).Ok? ==>
            && |Deserialize(ctx, depth, s, j).value.items| == |items|
            && forall i | 0 <= i < |items| ::
                 Deserialize(ctx, depth - 1, s.children[0], items[i]) == Ok(Deserialize(ctx, depth, s, j).value.items[i]))
      && (Deserialize(ctx, depth, s, j).Err? ==>
            exists i | 0 <= i < |items| ::
              && (forall k | 0 <= k < i :: Deserialize(ctx, depth - 1, s.children[0], items[k]).Ok?)
              && Deserialize(ctx, depth - 1, s.children[0], items[i]).Err?
              && Deserialize(ctx, depth, s, j).error == Deserialize(ctx, depth - 1, s.children[0], items[i]).error)
  {
    var elem := s.children[0];
    assert elem in s.children;
    if AsList(j).Some? {
      var items := AsList(j).value;
      var r := Deserialize(ctx, depth, s, j);
      var e := Elements(ctx, depth - 1, elem, items);
      assert r.Ok? ==> e.Ok? && r.value == Arr(e.value);
      assert r.Err? ==> e.Err? && r.error == e.error;
      ElementsPointwise(ctx, depth - 1, elem, items);
      if r.Err? {
        ElementsFirstFailure(ctx, depth - 1, elem, items);
      }
    }
  }

  /** A `Sequence` without children reads `children[0]` only once there
      is an item: an empty input gives an empty list, a non-empty one
      raises IndexError. */
  lemma SequenceWithoutChildren(ctx: Context, depth: nat, s: Schema, j: Json)
    requires s.kind == Sequence && |s.children| == 0 && depth > 0
    ensures AsList(j).None? ==> Deserialize(ctx, depth, s, j) == Err(Invalid(NotIterable, s.name))
    ensures AsList(j) == Some([]) ==> Deserialize(ctx, depth, s, j) == Ok(Arr([]))
    ensures AsList(j).Some? && AsList(j).value != [] ==> Deserialize(ctx, depth, s, j) == Err(Crash("IndexError"))
  {
  }

  // ---------------------------------------------------------------------
  // Relationship

  /** Viewing a schema under another name (what soap's rename of a model
      to the node it is reached through amounts to) changes nothing but
      the node an error is attributed to. */
  lemma {:induction false} RenameAgrees(ctx: Context, depth: nat, s: Schema, x: string, j: Json)
    ensures SameUpToNode(Deserialize(ctx, depth, s.(name := x), j), Deserialize(ctx, depth, s, j))
    decreases depth, 1
  {
    var sx := s.(name := x);
    if depth > 0 && s.kind.Relationship? && s.kind.model in ctx.models {
      var t := ctx.models[s.kind.model];
      if !s.kind.uselist {
        RenameAgrees(ctx, depth - 1, t, x, j);
        RenameAgrees(ctx, depth - 1, t, s.name, j);
      } else if depth > 1 && AsList(j).Some? {
        ListRenameAgrees(ctx, depth, s, x, j, AsList(j).value);
      }
    }
  }

  /** The list case of `RenameAgrees`: both names lead to a sequence
      wrapper around the same model, renamed. */
  lemma {:induction false} ListRenameAgrees(ctx: Context, depth: nat, s: Schema, x: string, j: Json,
                                            items: seq<Json>)
    requires s.kind.Relationship? && s.kind.uselist && s.kind.model in ctx.models
    requires depth > 1 && AsList(j) == Some(items)
    ensures SameUpToNode(Deserialize(ctx, depth, s.(name := x), j), Deserialize(ctx, depth, s, j))
    decreases depth, 0
  {
    var t := ctx.models[s.kind.model];
    var wx := Node(Sequence, x, [t.(name := x)], Null);
    var ws := Node(Sequence, s.name, [t.(name := s.name)], Null);
    ListUnfold(ctx, depth, s, x, j);
    assert Deserialize(ctx, depth, s, j) == Deserialize(ctx, depth - 1, ws, j) by {
      ListUnfold(ctx, depth, s, s.name, j);
      assert s.(name := s.name) == s;
    }
    assert SameUpToNode(Deserialize(ctx, depth - 1, wx, j), Deserialize(ctx, depth - 1, ws, j)) by {
      ElementsRenamesAgree(ctx, (depth - 1) - 1, t, x, s.name, items);
      assert AsList(j) == Some(items);
      assert SameUpToNode(Elements(ctx, (depth - 1) - 1, t.(name := x), items), Elements(ctx, (depth - 1) - 1, t.(name := s.name), items));
      WrappersAgree(ctx, depth - 1, x, s.name, t.(name := x), t.(name := s.name), j, items);
    }
    assert Deserialize(ctx, depth, s.(name := x), j) == Deserialize(ctx, depth - 1, wx, j);
  }

  /** The element loop under two renamings of one model. */
  lemma {:induction false} ElementsRenamesAgree(ctx: Context, depth: nat, t: Schema, x: string, y: string,
                                                items: seq<Json>)
    ensures SameUpToNode(Elements(ctx, depth, t.(name := x), items), Elements(ctx, depth, t.(name := y), items))
    decreases depth, 3
  {
    ElementsRenameAgree(ctx, depth, t, x, items);
    ElementsRenameAgree(ctx, depth, t, y, items);
  }

  /** A list relationship, under the name `x`, is its sequence wrapper
      around the model renamed to `x`. */
  lemma ListUnfold(ctx: Context, depth: nat, s: Schema, x: string, j: Json)
    requires s.kind.Relationship? && s.kind.uselist && s.kind.model in ctx.models && depth > 0
    ensures Deserialize(ctx, depth, s.(name := x), j) ==
            Deserialize(ctx, depth - 1, Node(Sequence, x, [ctx.models[s.kind.model].(name := x)], Null), j)
  {
  }

  /** Two sequence wrappers whose element loops agree up to node names
      agree up to node names. */
  lemma WrappersAgree(ctx: Context, depth: nat, n1: string, n2: string, a: Schema, b: Schema,
                      j: Json, items: seq<Json>)
    requires depth > 0 && AsList(j) == Some(items)
    requires SameUpToNode(Elements(ctx, depth - 1, a, items), Elements(ctx, depth - 1, b, items))
    ensures SameUpToNode(Deserialize(ctx, depth, Node(Sequence, n1, [a], Null), j),
                         Deserialize(ctx, depth, Node(Sequence, n2, [b], Null), j))
  {
  }

  lemma {:induction false} ElementsRenameAgree(ctx: Context, depth: nat, t: Schema, x: string, items: seq<Json>)
    ensures SameUpToNode(Elements(ctx, depth, t.(name := x), items), Elements(ctx, depth, t, items))
    decreases depth, 2, |items|
  {
    if items != [] {
      RenameAgrees(ctx, depth, t, x, items[0]);
      ElementsRenameAgree(ctx, depth, t, x, items[1..]);
    }
  }

  /** `Relationship(model, uselist=False)` deserializes like the
      registered model itself; only the node named by an error differs. A
      mapping model that meets a non-mapping input fails under the
      relationship node's own name. */
  lemma RelationshipSingle(ctx: Context, depth: nat, s: Schema, j: Json)
    requires s.kind.Relationship? && !s.kind.uselist && depth > 0
    requires s.kind.model in ctx.models
    ensures SameUpToNode(Deserialize(ctx, depth, s, j), Deserialize(ctx, depth - 1, ctx.models[s.kind.model], j))
    ensures depth > 1 && ctx.models[s.kind.model].kind.Mapping? && AsMapping(j).None? ==>
            Deserialize(ctx, depth, s, j) == Err(Invalid(NotAMapping, s.name))
  {
    RenameAgrees(ctx, depth - 1, ctx.models[s.kind.model], s.name, j);
  }

  /** A relationship to a model that is not registered raises KeyError
      when it is reached, whatever the input. */
  lemma RelationshipUnregistered(ctx: Context, depth: nat, s: Schema, j: Json)
    requires s.kind.Relationship? && s.kind.model !in ctx.models && depth > 0
    ensures Deserialize(ctx, depth, s, j) == Err(Crash("KeyError"))
  {
  }

  /** `Relationship(model, uselist=True)` deserializes like a `Sequence`
      node whose element schema is the registered model; only the node
      named by an error differs. */
  lemma RelationshipList(ctx: Context, depth: nat, s: Schema, j: Json)
    requires s.kind.Relationship? && s.kind.uselist && depth > 0
    requires s.kind.model in ctx.models
    ensures SameUpToNode(Deserialize(ctx, depth, s, j),
                         Deserialize(ctx, depth - 1, Node(Sequence, s.name, [ctx.models[s.kind.model]], Null), j))
  {
    var t := ctx.models[s.kind.model];
    var w := Node(Sequence, s.name, [t], Null);
    var v := Node(Sequence, s.name, [t.(name := s.name)], Null);
    assert Deserialize(ctx, depth, s, j) == Deserialize(ctx, depth - 1, v, j);
    if depth > 1 && AsList(j).Some? {
      ElementsRenameAgree(ctx, depth - 2, t, s.name, AsList(j).value);
    }
  }

  /** A list relationship succeeds exactly when `list()` accepts the input
      and every item deserializes under the registered model, and then
      yields those items' values in order. */
  lemma RelationshipListItems(ctx: Context, depth: nat, s: Schema, j: Json)
    requires s.kind.Relationship? && s.kind.uselist && depth > 1
    requires s.kind.model in ctx.models
    ensures Deserialize(ctx, depth, s, j).Ok? <==>
            AsList(j).Some? &&
            forall i | 0 <= i < |AsList(j).value| ::
              Deserialize(ctx, depth - 2, ctx.models[s.kind.model], AsList(j).value[i]).Ok?
    ensures Deserialize(ctx, depth, s, j).Ok? ==>
            && |Deserialize(ctx, depth, s, j).value.items| == |AsList(j).value|
            && forall i | 0 <= i < |AsList(j).value| ::
                 Deserialize(ctx, depth - 2, ctx.models[s.kind.model], AsList(j).value[i]) ==
                 Ok(Deserialize(ctx, depth, s, j).value.items[i])
  {
    var w := Node(Sequence, s.name, [ctx.models[s.kind.model]], Null);
    RelationshipList(ctx, depth, s, j);
    SequenceOutput(ctx, depth - 1, w, j);
    var r := Deserialize(ctx, depth, s, j);
    var q := Deserialize(ctx, depth - 1, w, j);
    assert r.Ok? <==> q.Ok?;
    assert r.Ok? ==> r.value == q.value;
  }

  // ---------------------------------------------------------------------
  // Idempotence

  /** Sibling names are distinct. */
  predicate DistinctNames(cs: seq<Schema>) {
    forall i, k | 0 <= i < k < |cs| :: cs[i].name != cs[k].name
  }

  /** Every mapping has distinct child names and no defaults, here and in
      every schema below. */
  predicate Strict(s: Schema)
    decreases s
  {
    && (s.kind.Mapping? ==> DistinctNames(s.children) && forall c | c in s.children :: Required(c))
    && forall c | c in s.children :: Strict(c)
  }

  predicate StrictRegistry(models: Registry) {
    forall n | n in models :: Strict(models[n])
  }

  /** A mapping loop run over its own output, with distinct names and
      every child reproducing its value, gives that output back. */
  lemma FieldsReproduce(ctx: Context, depth: nat, cs: seq<Schema>, out: map<string, Json>)
    requires DistinctNames(cs) && out.Keys == Names(cs)
    requires forall i | 0 <= i < |cs| :: cs[i].name in out && Field(ctx, depth, cs[i], out) == Ok(out[cs[i].name])
    ensures Fields(ctx, depth, cs, out, map[]) == Ok(out)
  {
    FieldsSucceedIffAll(ctx, depth, cs, out, map[]);
    var r := Fields(ctx, depth, cs, out, map[]);
    var out2 := r.value;
    assert out2.Keys == out.Keys;
    forall k | k in out2
      ensures out2[k] == out[k]
    {
      NamesMember(cs, k);
      var i :| 0 <= i < |cs| && cs[i].name == k;
      FieldsValues(ctx, depth, cs, out, map[], i);
    }
    assert out2 == out;
    assert r == Ok(out2);
  }

  /** Deserializing a successful output again through the same schema
      gives it back unchanged, when no default is involved. */
  lemma {:induction false} Idempotent(ctx: Context, depth: nat, s: Schema, j: Json)
    requires StrictRegistry(ctx.models) && Strict(s)
    requires Deserialize(ctx, depth, s, j).Ok?
    ensures Deserialize(ctx, depth, s, Deserialize(ctx, depth, s, j).value) == Deserialize(ctx, depth, s, j)
    decreases depth, 3
  {
    match s.kind
    case Int =>
    case String =>
    case Mapping =>
      IdempotentMapping(ctx, depth, s, j);
    case Sequence =>
      IdempotentSequence(ctx, depth, s, j);
    case Relationship(target, uselist) =>
      var view := ctx.models[target].(name := s.name);
      if uselist {
        Idempotent(ctx, depth - 1, Node(Sequence, s.name, [view], Null), j);
      } else {
        Idempotent(ctx, depth - 1, view, j);
      }
  }

  lemma {:induction false} IdempotentSequence(ctx: Context, depth: nat, s: Schema, j: Json)
    requires StrictRegistry(ctx.models) && Strict(s) && s.kind.Sequence?
    requires Deserialize(ctx, depth, s, j).Ok?
    ensures Deserialize(ctx, depth, s, Deserialize(ctx, depth, s, j).value) == Deserialize(ctx, depth, s, j)
    decreases depth, 2
  {
    if |s.children| == 0 {
      assert Deserialize(ctx, depth, s, j).value == Arr([]);
      return;
    }
    var elem := s.children[0];
    assert elem in s.children;
    var items := AsList(j).value;
    var outs := Deserialize(ctx, depth, s, j).value.items;
    SequenceOutput(ctx, depth, s, j);
    forall i | 0 <= i < |outs|
      ensures Deserialize(ctx, depth - 1, elem, outs[i]) == Ok(outs[i])
    {
      Idempotent(ctx, depth - 1, elem, items[i]);
    }
    SequenceOutput(ctx, depth, s, Arr(outs));
    assert Deserialize(ctx, depth, s, Arr(outs)).value.items == outs;
  }

  lemma {:induction false} IdempotentMapping(ctx: Context, depth: nat, s: Schema, j: Json)
    requires StrictRegistry(ctx.models) && Strict(s) && s.kind.Mapping?
    requires Deserialize(ctx, depth, s, j).Ok?
    ensures Deserialize(ctx, depth, s, Deserialize(ctx, depth, s, j).value) == Deserialize(ctx, depth, s, j)
    decreases depth, 2
  {
    var cs := s.children;
    var out := Deserialize(ctx, depth, s, j).value.fields;
    ChildrenReproduce(ctx, depth, s, j);
    FieldsReproduce(ctx, depth - 1, cs, out);
    assert AsMapping(Obj(out)) == Some(out);
    assert Deserialize(ctx, depth, s, j) == Ok(Obj(out));
  }

  /** Every child of a strict mapping gives back, from the output, the
      value it wrote there. */
  lemma {:induction false} ChildrenReproduce(ctx: Context, depth: nat, s: Schema, j: Json)
    requires StrictRegistry(ctx.models) && Strict(s) && s.kind.Mapping?
    requires Deserialize(ctx, depth, s, j).Ok?
    ensures var out := Deserialize(ctx, depth, s, j).value.fields;
            forall i | 0 <= i < |s.children| ::
              s.children[i].name in out && Field(ctx, depth - 1, s.children[i], out) == Ok(out[s.children[i].name])
    decreases depth, 1
  {
    var cs := s.children;
    var fields := AsMapping(j).value;
    var out := Deserialize(ctx, depth, s, j).value.fields;
    assert Fields(ctx, depth - 1, cs, fields, map[]) == Ok(out);
    FieldsSucceedIffAll(ctx, depth - 1, cs, fields, map[]);
    forall i | 0 <= i < |cs|
      ensures cs[i].name in out && Field(ctx, depth - 1, cs[i], out) == Ok(out[cs[i].name])
    {
      var c := cs[i];
      assert c in cs && LastNamed(cs, i);
      FieldsValues(ctx, depth - 1, cs, fields, map[], i);
      FieldReproduces(ctx, depth - 1, c, fields, out);
    }
  }

  lemma {:induction false} FieldReproduces(ctx: Context, depth: nat, c: Schema, fields: map<string, Json>,
                                           out: map<string, Json>)
    requires StrictRegistry(ctx.models) && Strict(c) && Required(c)
    requires c.name in out && Field(ctx, depth, c, fields) == Ok(out[c.name])
    ensures Field(ctx, depth, c, out) == Ok(out[c.name])
    decreases depth, 4
  {
    assert Present(c, fields);
    Idempotent(ctx, depth, c, fields[c.name]);
  }

  /** Defaults are copied verbatim and not converted, so a second pass
      can change an output that holds one: a String field with default 5
      gives 5 on an empty input and "5" on that output. */
  lemma DefaultsAreNotConverted(ctx: Context)
    ensures var s := Node(Mapping, "m", [Node(String, "a", [], Num(5))], Null);
            && Deserialize(ctx, 3, s, Obj(map[])) == Ok(Obj(map["a" := Num(5)]))
            && Deserialize(ctx, 3, s, Obj(map["a" := Num(5)])) == Ok(Obj(map["a" := Str("5")]))
  {
    var a := Node(String, "a", [], Num(5));
    var s := Node(Mapping, "m", [a], Null);
    assert Field(ctx, 2, a, map[]) == Ok(Num(5));
    assert Fields(ctx, 2, [a], map[], map[]) == Ok(map["a" := Num(5)]);
    assert Deserialize(ctx, 2, a, Num(5)) == Ok(Str("5"));
    assert Fields(ctx, 2, [a], map["a" := Num(5)], map[]) == Ok(map["a" := Str("5")]);
  }
}

=== FILE: scenarios.dfy ===
/** Concrete runs of the deserializer on the schemas and payloads of
    soap's functional tests, built imperatively from schema nodes. */
module Scenarios {
  import opened Outcomes
  import opened Values
  import opened Coerce
  import opened Schemas
  import opened Deserialization
  import opened Properties

  const IdField := Node(Int, "id", [], Null)
  const NameField := Node(String, "name", [], Null)

  const ChildSchema := Model("ChildSchema", Mapping, [
    IdField,
    NameField,
    Node(Relationship("TestSchema", false), "parent_node", [], Obj(map[]))])

  const TestSchema := Model("TestSchema", Mapping, [
    IdField,
    NameField,
    Node(Relationship("ChildSchema", false), "sub_node", [], Obj(map[])),
    Node(Relationship("ChildSchema", true), "sub_seq_nodes", [], Arr([]))])

  function Models(): Registry {
    Register(Register(map[], ChildSchema), TestSchema)
  }

  lemma ModelsReady(ctx: Context)
    requires ctx.models == Models()
    ensures Ready(ctx, TestSchema) && Ready(ctx, ChildSchema)
  {
    assert WellFormed(Models(), ChildSchema);
    assert WellFormed(Models(), TestSchema);
  }

  const ParentIn := Obj(map["id" := Num(0), "name" := Str("blah")])
  const SubNodeIn := Obj(map["id" := Num(0), "name" := Str("sub_blah"), "del_key" := Str("this key should get removed")])
  const Item0In := Obj(map["id" := Num(0), "name" := Str("sub_seq_blah_0"), "parent_node" := ParentIn,
                           "del_key" := Str("this key should be removed")])
  const Item1In := Obj(map["id" := Num(1), "name" := Str("sub_seq_blah_1")])
  const Payload := Obj(map["id" := Num(0), "name" := Str("blah"), "sub_node" := SubNodeIn,
                           "sub_seq_nodes" := Arr([Item0In, Item1In])])

  const ParentOut := Obj(map["id" := Num(0), "name" := Str("blah"), "sub_node" := Obj(map[]), "sub_seq_nodes" := Arr([])])
  const SubNodeOut := Obj(map["id" := Num(0), "name" := Str("sub_blah"), "parent_node" := Obj(map[])])
  const Item0Out := Obj(map["id" := Num(0), "name" := Str("sub_seq_blah_0"), "parent_node" := ParentOut])
  const Item1Out := Obj(map["id" := Num(1), "name" := Str("sub_seq_blah_1"), "parent_node" := Obj(map[])])
  const Expected := Obj(map["id" := Num(0), "name" := Str("blah"), "sub_node" := SubNodeOut,
                            "sub_seq_nodes" := Arr([Item0Out, Item1Out])])

  // Unfolding steps for concrete runs.

  lemma FieldsTwo(ctx: Context, d: nat, cs: seq<Schema>, f: map<string, Json>, v0: Json, v1: Json)
    requires |cs| == 2
    requires Field(ctx, d, cs[0], f) == Ok(v0)
    requires Field(ctx, d, cs[1], f) == Ok(v1)
    ensures Fields(ctx, d, cs, f, map[]) == Ok(map[cs[0].name := v0][cs[1].name := v1])
  {
    var m1 := map[][cs[0].name := v0];
    assert cs[0] in cs && cs[1] in cs;
    assert Fields(ctx, d, cs, f, map[]) == Fields(ctx, d, cs[1..], f, m1);
    assert Fields(ctx, d, cs[1..], f, m1) == Fields(ctx, d, [], f, m1[cs[1].name := v1]);
  }

  lemma FieldsThree(ctx: Context, d: nat, cs: seq<Schema>, f: map<string, Json>, v0: Json, v1: Json, v2: Json)
    requires |cs| == 3
    requires Field(ctx, d, cs[0], f) == Ok(v0)
    requires Field(ctx, d, cs[1], f) == Ok(v1)
    requires Field(ctx, d, cs[2], f) == Ok(v2)
    ensures Fields(ctx, d, cs, f, map[]) == Ok(map[cs[0].name := v0][cs[1].name := v1][cs[2].name := v2])
  {
    var m1 := map[][cs[0].name := v0];
    var m2 := m1[cs[1].name := v1];
    assert cs[0] in cs && cs[1] in cs && cs[2] in cs;
    assert Fields(ctx, d, cs, f, map[]) == Fields(ctx, d, cs[1..], f, m1);
    assert Fields(ctx, d, cs[1..], f, m1) == Fields(ctx, d, cs[2..], f, m2);
    assert Fields(ctx, d, cs[2..], f, m2) == Fields(ctx, d, [], f, m2[cs[2].name := v2]);
  }

  lemma FieldsFour(ctx: Context, d: nat, cs: seq<Schema>, f: map<string, Json>,
                   v0: Json, v1: Json, v2: Json, v3: Json)
    requires |cs| == 4
    requires Field(ctx, d, cs[0], f) == Ok(v0)
    requires Field(ctx, d, cs[1], f) == Ok(v1)
    requires Field(ctx, d, cs[2], f) == Ok(v2)
    requires Field(ctx, d, cs[3], f) == Ok(v3)
    ensures Fields(ctx, d, cs, f, map[]) ==
            Ok(map[cs[0].name := v0][cs[1].name := v1][cs[2].name := v2][cs[3].name := v3])
  {
    var m1 := map[][cs[0].name := v0];
    var m2 := m1[cs[1].name := v1];
    var m3 := m2[cs[2].name := v2];
    assert cs[0] in cs && cs[1] in cs && cs[2] in cs && cs[3] in cs;
    assert Fields(ctx, d, cs, f, map[]) == Fields(ctx, d, cs[1..], f, m1);
    assert Fields(ctx, d, cs[1..], f, m1) == Fields(ctx, d, cs[2..], f, m2);
    assert Fields(ctx, d, cs[2..], f, m2) == Fields(ctx, d, cs[3..], f, m3);
    assert Fields(ctx, d, cs[3..], f, m3) == Fields(ctx, d, [], f, m3[cs[3].name := v3]);
  }

  /** The child `c` of a mapping takes the value `v` from the input's
      fields `f`. */
  predicate Gives(ctx: Context, d: nat, c: Schema, f: map<string, Json>, v: Json) {
    Field(ctx, d, c, f) == Ok(v)
  }

  /** A mapping node of three children, each giving its value. */
  predicate GivesThree(ctx: Context, d: nat, s: Schema, j: Json, v0: Json, v1: Json, v2: Json) {
    && s.kind.Mapping? && d > 0 && j.Obj? && |s.children| == 3
    && Gives(ctx, d - 1, s.children[0], j.fields, v0)
    && Gives(ctx, d - 1, s.children[1], j.fields, v1)
    && Gives(ctx, d - 1, s.children[2], j.fields, v2)
  }

  /** A mapping node of four children, each giving its value. */
  predicate GivesFour(ctx: Context, d: nat, s: Schema, j: Json, v0: Json, v1: Json, v2: Json, v3: Json) {
    && s.kind.Mapping? && d > 0 && j.Obj? && |s.children| == 4
    && Gives(ctx, d - 1, s.children[0], j.fields, v0)
    && Gives(ctx, d - 1, s.children[1], j.fields, v1)
    && Gives(ctx, d - 1, s.children[2], j.fields, v2)
    && Gives(ctx, d - 1, s.children[3], j.fields, v3)
  }

  lemma MappingTwo(ctx: Context, d: nat, s: Schema, j: Json, v0: Json, v1: Json)
    requires s.kind.Mapping? && d > 0 && j.Obj? && |s.children| == 2
    requires Gives(ctx, d - 1, s.children[0], j.fields, v0)
    requires Gives(ctx, d - 1, s.children[1], j.fields, v1)
    ensures Deserialize(ctx, d, s, j) == Ok(Obj(map[s.children[0].name := v0][s.children[1].name := v1]))
  {
    FieldsTwo(ctx, d - 1, s.children, j.fields, v0, v1);
  }

  lemma MappingThree(ctx: Context, d: nat, s: Schema, j: Json, v0: Json, v1: Json, v2: Json)
    requires GivesThree(ctx, d, s, j, v0, v1, v2)
    ensures Deserialize(ctx, d, s, j) ==
            Ok(Obj(map[s.children[0].name := v0][s.children[1].name := v1][s.children[2].name := v2]))
  {
    FieldsThree(ctx, d - 1, s.children, j.fields, v0, v1, v2);
  }

  lemma MappingFour(ctx: Context, d: nat, s: Schema, j: Json, v0: Json, v1: Json, v2: Json, v3: Json)
    requires GivesFour(ctx, d, s, j, v0, v1, v2, v3)
    ensures Deserialize(ctx, d, s, j) ==
            Ok(Obj(map[s.children[0].name := v0][s.children[1].name := v1][s.children[2].name := v2][s.children[3].name := v3]))
  {
    FieldsFour(ctx, d - 1, s.children, j.fields, v0, v1, v2, v3);
  }

  lemma RelationshipStep(ctx: Context, d: nat, s: Schema, j: Json)
    requires s.kind.Relationship? && !s.kind.uselist && s.kind.model in ctx.models && d > 0
    ensures Deserialize(ctx, d, s, j) == Deserialize(ctx, d - 1, ctx.models[s.kind.model].(name := s.name), j)
  {
  }

  lemma IntField(ctx: Context, d: nat, c: Schema, f: map<string, Json>, n: int)
    requires c.kind.Int? && d > 0 && c.name in f && f[c.name] == Num(n)
    ensures Gives(ctx, d, c, f, Num(n))
  {
  }

  lemma StringField(ctx: Context, d: nat, c: Schema, f: map<string, Json>, t: string)
    requires c.kind.String? && d > 0 && c.name in f && f[c.name] == Str(t)
    ensures Gives(ctx, d, c, f, Str(t))
  {
  }

  lemma DefaultField(ctx: Context, d: nat, c: Schema, f: map<string, Json>)
    requires c.name !in f && c.missing != Null
    ensures Gives(ctx, d, c, f, c.missing)
  {
  }

  lemma PresentField(ctx: Context, d: nat, c: Schema, f: map<string, Json>, v: Json)
    requires c.name in f && f[c.name] != Null && Deserialize(ctx, d, c, f[c.name]) == Ok(v)
    ensures Gives(ctx, d, c, f, v)
  {
  }

  lemma ParentFieldValues(ctx: Context)
    requires ctx.models == Models()
    ensures GivesFour(ctx, 5, TestSchema.(name := "parent_node"), ParentIn, Num(0), Str("blah"), Obj(map[]), Arr([]))
  {
    var tc := TestSchema.children;
    var f := ParentIn.fields;
    assert tc[0] in tc && tc[1] in tc && tc[2] in tc && tc[3] in tc;
    IntField(ctx, 4, tc[0], f, 0);
    StringField(ctx, 4, tc[1], f, "blah");
    DefaultField(ctx, 4, tc[2], f);
    DefaultField(ctx, 4, tc[3], f);
  }

  /** The parent node of the first sequence item, read through the test
      schema: its own relationship fields are absent and take their
      defaults. */
  lemma ParentStep(ctx: Context)
    requires ctx.models == Models()
    ensures Deserialize(ctx, 6, ChildSchema.children[2], ParentIn) == Ok(ParentOut)
  {
    ParentFieldValues(ctx);
    var view := TestSchema.(name := "parent_node");
    MappingFour(ctx, 5, view, ParentIn, Num(0), Str("blah"), Obj(map[]), Arr([]));
    assert ChildSchema.children[2] in ChildSchema.children;
    RelationshipStep(ctx, 6, ChildSchema.children[2], ParentIn);
  }

  lemma Item0FieldValues(ctx: Context)
    requires ctx.models == Models()
    ensures GivesThree(ctx, 7, ChildSchema.(name := "sub_seq_nodes"), Item0In, Num(0), Str("sub_seq_blah_0"), ParentOut)
  {
    var cc := ChildSchema.children;
    var f := Item0In.fields;
    assert cc[0] in cc && cc[1] in cc && cc[2] in cc;
    IntField(ctx, 6, cc[0], f, 0);
    StringField(ctx, 6, cc[1], f, "sub_seq_blah_0");
    ParentStep(ctx);
    PresentField(ctx, 6, cc[2], f, ParentOut);
  }

  lemma Item1FieldValues(ctx: Context)
    requires ctx.models == Models()
    ensures GivesThree(ctx, 7, ChildSchema.(name := "sub_seq_nodes"), Item1In, Num(1), Str("sub_seq_blah_1"), Obj(map[]))
  {
    var cc := ChildSchema.children;
    var f := Item1In.fields;
    assert cc[0] in cc && cc[1] in cc && cc[2] in cc;
    IntField(ctx, 6, cc[0], f, 1);
    StringField(ctx, 6, cc[1], f, "sub_seq_blah_1");
    DefaultField(ctx, 6, cc[2], f);
  }

  /** The first sequence item: its unknown key is dropped and its parent
      node is followed back to the test schema. */
  lemma Item0Step(ctx: Context)
    requires ctx.models == Models()
    ensures Deserialize(ctx, 7, ChildSchema.(name := "sub_seq_nodes"), Item0In) == Ok(Item0Out)
  {
    Item0FieldValues(ctx);
    var view := ChildSchema.(name := "sub_seq_nodes");
    MappingThree(ctx, 7, view, Item0In, Num(0), Str("sub_seq_blah_0"), ParentOut);
  }

  /** The second sequence item: its absent parent node takes the default. */
  lemma Item1Step(ctx: Context)
    requires ctx.models == Models()
    ensures Deserialize(ctx, 7, ChildSchema.(name := "sub_seq_nodes"), Item1In) == Ok(Item1Out)
  {
    Item1FieldValues(ctx);
    var view := ChildSchema.(name := "sub_seq_nodes");
    MappingThree(ctx, 7, view, Item1In, Num(1), Str("sub_seq_blah_1"), Obj(map[]));
  }

  lemma ElementsTwo(ctx: Context, d: nat, elem: Schema, a: Json, b: Json, x: Json, y: Json)
    requires Deserialize(ctx, d, elem, a) == Ok(x) && Deserialize(ctx, d, elem, b) == Ok(y)
    ensures Elements(ctx, d, elem, [a, b]) == Ok([x, y])
  {
    var one := [b];
    var two := [a, b];
    assert one[0] == b && one[1..] == [];
    assert [y] + [] == [y];
    assert Elements(ctx, d, elem, one) == Ok([y]);
    assert two[0] == a && two[1..] == one;
    assert Elements(ctx, d, elem, two[1..]) == Ok([y]);
    assert [x] + [y] == [x, y];
  }

  lemma ListStep(ctx: Context, d: nat, s: Schema, items: seq<Json>, vs: seq<Json>)
    requires s.kind.Relationship? && s.kind.uselist && s.kind.model in ctx.models && d > 1
    requires Elements(ctx, d - 2, ctx.models[s.kind.model].(name := s.name), items) == Ok(vs)
    ensures Deserialize(ctx, d, s, Arr(items)) == Ok(Arr(vs))
  {
    var view := ctx.models[s.kind.model].(name := s.name);
    var wrapper := Node(Sequence, s.name, [view], Null);
    assert Deserialize(ctx, d - 1, wrapper, Arr(items)) == Ok(Arr(vs));
  }

  lemma ItemsStep(ctx: Context)
    requires ctx.models == Models()
    ensures Elements(ctx, 7, ChildSchema.(name := "sub_seq_nodes"), [Item0In, Item1In]) == Ok([Item0Out, Item1Out])
  {
    Item0Step(ctx);
    Item1Step(ctx);
    ElementsTwo(ctx, 7, ChildSchema.(name := "sub_seq_nodes"), Item0In, Item1In, Item0Out, Item1Out);
  }

  /** The list relationship: both items, in order. */
  lemma SubSeqStep(ctx: Context)
    requires ctx.models == Models()
    ensures Deserialize(ctx, 9, TestSchema.children[3], Arr([Item0In, Item1In])) == Ok(Arr([Item0Out, Item1Out]))
  {
    assert TestSchema.children[3] in TestSchema.children;
    ItemsStep(ctx);
    ListStep(ctx, 9, TestSchema.children[3], [Item0In, Item1In], [Item0Out, Item1Out]);
  }

  lemma SubNodeFieldValues(ctx: Context)
    requires ctx.models == Models()
    ensures GivesThree(ctx, 8, ChildSchema.(name := "sub_node"), SubNodeIn, Num(0), Str("sub_blah"), Obj(map[]))
  {
    var cc := ChildSchema.children;
    var f := SubNodeIn.fields;
    assert cc[0] in cc && cc[1] in cc && cc[2] in cc;
    IntField(ctx, 7, cc[0], f, 0);
    StringField(ctx, 7, cc[1], f, "sub_blah");
    DefaultField(ctx, 7, cc[2], f);
  }

  /** The single relationship: the unknown key is dropped and the absent
      parent node takes its default. */
  lemma SubNodeStep(ctx: Context)
    requires ctx.models == Models()
    ensures Deserialize(ctx, 9, TestSchema.children[2], SubNodeIn) == Ok(SubNodeOut)
  {
    SubNodeFieldValues(ctx);
    var view := ChildSchema.(name := "sub_node");
    MappingThree(ctx, 8, view, SubNodeIn, Num(0), Str("sub_blah"), Obj(map[]));
    assert TestSchema.children[2] in TestSchema.children;
    RelationshipStep(ctx, 9, TestSchema.children[2], SubNodeIn);
  }

  lemma PayloadFieldValues(ctx: Context)
    requires ctx.models == Models()
    ensures GivesFour(ctx, 10, TestSchema, Payload, Num(0), Str("blah"), SubNodeOut, Arr([Item0Out, Item1Out]))
  {
    var tc := TestSchema.children;
    var f := Payload.fields;
    assert tc[0] in tc && tc[1] in tc && tc[2] in tc && tc[3] in tc;
    IntField(ctx, 9, tc[0], f, 0);
    StringField(ctx, 9, tc[1], f, "blah");
    SubNodeStep(ctx);
    PresentField(ctx, 9, tc[2], f, SubNodeOut);
    SubSeqStep(ctx);
    PresentField(ctx, 9, tc[3], f, Arr([Item0Out, Item1Out]));
  }

  /** The imperative relationships scenario: unknown keys are dropped at
      every level, absent relationship fields take their defaults, and the
      child schema's reference back to the test schema is followed. */
  lemma ImperativeRelationships(ctx: Context, depth: nat)
    requires ctx.models == Models() && depth >= 10
    ensures Deserialize(ctx, depth, TestSchema, Payload) == Ok(Expected)
  {
    PayloadFieldValues(ctx);
    MappingFour(ctx, 10, TestSchema, Payload, Num(0), Str("blah"), SubNodeOut, Arr([Item0Out, Item1Out]));
    DeserializeMono(ctx, 10, depth, TestSchema, Payload);
  }

  // ---------------------------------------------------------------------
  // The schema of the second no-relationship scenario, built directly:
  // a nested mapping and a sequence of strings.

  const SchemaTwo := Model("SchemaTwo", Mapping, [
    IdField,
    NameField,
    Node(Mapping, "mapping", [Node(String, "sub_name", [], Null), Node(Int, "sub_id", [], Null)], Null),
    Node(Sequence, "sequence", [Node(String, "seq", [], Null)], Null)])

  const TwoIn := Obj(map["id" := Str("0"), "name" := Str("schema_two"),
                         "mapping" := Obj(map["sub_name" := Str("schema_two_sub_node"), "sub_id" := Str("0"),
                                              "del_key" := Str("this key should be deleted")]),
                         "sequence" := Arr([Str("tag0"), Str("tag1"), Num(2), Str("tag3")])])

  const TwoOut := Obj(map["id" := Num(0), "name" := Str("schema_two"),
                          "mapping" := Obj(map["sub_name" := Str("schema_two_sub_node"), "sub_id" := Num(0)]),
                          "sequence" := Arr([Str("tag0"), Str("tag1"), Str("2"), Str("tag3")])])

  /** The text "0" is read as the integer 0. */
  lemma ZeroText(ctx: Context, d: nat, c: Schema, f: map<string, Json>)
    requires c.kind.Int? && d > 0 && c.name in f && f[c.name] == Str("0")
    ensures Gives(ctx, d, c, f, Num(0))
  {
    ParseFormatRoundTrip(0);
    assert FormatInt(0) == "0";
  }

  lemma ElementsCons(ctx: Context, d: nat, elem: Schema, a: Json, rest: seq<Json>, x: Json, xs: seq<Json>)
    requires Deserialize(ctx, d, elem, a) == Ok(x) && Elements(ctx, d, elem, rest) == Ok(xs)
    ensures Elements(ctx, d, elem, [a] + rest) == Ok([x] + xs)
  {
    var items := [a] + rest;
    assert items[0] == a && items[1..] == rest;
  }

  /** A sequence of strings turns the number 2 into the text "2" and keeps
      every other item, in order. */
  lemma TagsStep(ctx: Context)
    ensures Deserialize(ctx, 2, SchemaTwo.children[3], Arr([Str("tag0"), Str("tag1"), Num(2), Str("tag3")])) ==
            Ok(Arr([Str("tag0"), Str("tag1"), Str("2"), Str("tag3")]))
  {
    var seqNode := SchemaTwo.children[3];
    var e := seqNode.children[0];
    assert FormatInt(2) == "2";
    ElementsCons(ctx, 1, e, Str("tag3"), [], Str("tag3"), []);
    assert [Str("tag3")] + [] == [Str("tag3")];
    ElementsCons(ctx, 1, e, Num(2), [Str("tag3")], Str("2"), [Str("tag3")]);
    assert [Num(2)] + [Str("tag3")] == [Num(2), Str("tag3")];
    assert [Str("2")] + [Str("tag3")] == [Str("2"), Str("tag3")];
    ElementsCons(ctx, 1, e, Str("tag1"), [Num(2), Str("tag3")], Str("tag1"), [Str("2"), Str("tag3")]);
    assert [Str("tag1")] + [Num(2), Str("tag3")] == [Str("tag1"), Num(2), Str("tag3")];
    assert [Str("tag1")] + [Str("2"), Str("tag3")] == [Str("tag1"), Str("2"), Str("tag3")];
    ElementsCons(ctx, 1, e, Str("tag0"), [Str("tag1"), Num(2), Str("tag3")], Str("tag0"), [Str("tag1"), Str("2"), Str("tag3")]);
    assert [Str("tag0")] + [Str("tag1"), Num(2), Str("tag3")] == [Str("tag0"), Str("tag1"), Num(2), Str("tag3")];
    assert [Str("tag0")] + [Str("tag1"), Str("2"), Str("tag3")] == [Str("tag0"), Str("tag1"), Str("2"), Str("tag3")];
  }

  /** The nested mapping drops its unknown key and parses its integer text. */
  lemma NestedStep(ctx: Context)
    ensures Deserialize(ctx, 2, SchemaTwo.children[2], TwoIn.fields["mapping"]) == Ok(TwoOut.fields["mapping"])
  {
    var m := SchemaTwo.children[2];
    var f := TwoIn.fields["mapping"].fields;
    assert m.children[0] in m.children && m.children[1] in m.children;
    StringField(ctx, 1, m.children[0], f, "schema_two_sub_node");
    ZeroText(ctx, 1, m.children[1], f);
    MappingTwo(ctx, 2, m, TwoIn.fields["mapping"], Str("schema_two_sub_node"), Num(0));
  }

  /** Integer text is parsed, an unknown key is dropped in the nested
      mapping, and a number in a sequence of strings becomes its text. */
  lemma NoRelationships(ctx: Context, depth: nat)
    requires depth >= 3
    ensures Deserialize(ctx, depth, SchemaTwo, TwoIn) == Ok(TwoOut)
  {
    var tc := SchemaTwo.children;
    var f := TwoIn.fields;
    assert tc[0] in tc && tc[1] in tc && tc[2] in tc && tc[3] in tc;
    ZeroText(ctx, 2, tc[0], f);
    StringField(ctx, 2, tc[1], f, "schema_two");
    NestedStep(ctx);
    PresentField(ctx, 2, tc[2], f, TwoOut.fields["mapping"]);
    TagsStep(ctx);
    PresentField(ctx, 2, tc[3], f, TwoOut.fields["sequence"]);
    MappingFour(ctx, 3, SchemaTwo, TwoIn, Num(0), Str("schema_two"), TwoOut.fields["mapping"], TwoOut.fields["sequence"]);
    DeserializeMono(ctx, 3, depth, SchemaTwo, TwoIn);
  }

  // ---------------------------------------------------------------------
  // A self-referencing model

  const Parent := Model("Parent", Mapping, [
    NameField,
    Node(Relationship("Parent", false), "child", [], Obj(map[]))])

  const RootIn := Obj(map["name" := Str("root"), "child" := Obj(map["name" := Str("leaf")])])
  const RootOut := Obj(map["name" := Str("root"), "child" := Obj(map["name" := Str("leaf"), "child" := Obj(map[])])])

  /** A model whose relationship names itself reads the nested child with
      its own rules, and the leaf's absent child takes the default. */
  lemma SelfReference(ctx: Context, depth: nat)
    requires ctx.models == Register(map[], Parent) && depth >= 4
    ensures Deserialize(ctx, depth, Parent, RootIn) == Ok(RootOut)
  {
    var pc := Parent.children;
    assert pc[0] in pc && pc[1] in pc;
    var leafIn := RootIn.fields["child"];
    var leafOut := RootOut.fields["child"];
    var view := Parent.(name := "child");
    // The leaf, through the renamed model.
    StringField(ctx, 1, pc[0], leafIn.fields, "leaf");
    DefaultField(ctx, 1, pc[1], leafIn.fields);
    MappingTwo(ctx, 2, view, leafIn, Str("leaf"), Obj(map[]));
    RelationshipStep(ctx, 3, pc[1], leafIn);
    // The root.
    StringField(ctx, 3, pc[0], RootIn.fields, "root");
    PresentField(ctx, 3, pc[1], RootIn.fields, leafOut);
    MappingTwo(ctx, 4, Parent, RootIn, Str("root"), leafOut);
    DeserializeMono(ctx, 4, depth, Parent, RootIn);
  }

  // ---------------------------------------------------------------------
  // A model whose input does not shrink

  /** A sequence model whose element is the model itself, through a
      single relationship: `list("a")` is `["a"]`, so every level meets
      the same input "a" again. soap recurses until Python gives up. */
  const Loop := Model("Loop", Sequence, [Node(Relationship("Loop", false), "item", [], Null)])

  /** Whatever the budget, the self-applying sequence over "a" exhausts it. */
  lemma {:induction false} LoopExhaustsBudget(ctx: Context, depth: nat, x: string)
    requires ctx.models == Register(map[], Loop)
    ensures Deserialize(ctx, depth, Loop.(name := x), Str("a")) == Err(TooDeep)
    decreases depth
  {
    var l := Loop.(name := x);
    var item := Loop.children[0];
    assert item in l.children;
    if depth > 0 {
      assert Chars("a") == [Str("a")] by {
        assert "a"[0] == 'a' && ['a'] == "a";
      }
      if depth > 1 {
        LoopExhaustsBudget(ctx, depth - 2, "item");
        assert Deserialize(ctx, depth - 1, item, Str("a")) == Err(TooDeep);
      }
      assert Elements(ctx, depth - 1, item, [Str("a")]) == Err(TooDeep);
    }
  }

  // ---------------------------------------------------------------------
  // A required field that is absent

  /** The test schema run without a name, at the smallest budget. */
  lemma MissingNameStep(ctx: Context)
    requires ctx.models == Models()
    ensures Deserialize(ctx, 3, TestSchema, Obj(map["id" := Num(0), "name" := Null])) ==
            Err(Invalid("The field named 'name' is missing.", "name"))
  {
    var f := map["id" := Num(0), "name" := Null];
    var tc := TestSchema.children;
    assert tc[0] in tc;
    IntField(ctx, 2, tc[0], f, 0);
    assert tc[1].name == "name" && !Present(tc[1], f) && Required(tc[1]);
    MissingRequiredField(ctx, 3, TestSchema, Obj(f), f, 1);
    assert MissingField("name") == "The field named 'name' is missing.";
  }

  /** Without a name, the test schema fails on the name field, with the
      message soap raises for it; the id before it is fine. */
  lemma MissingName(ctx: Context, depth: nat)
    requires ctx.models == Models() && depth >= 3
    ensures Deserialize(ctx, depth, TestSchema, Obj(map["id" := Num(0), "name" := Null])) ==
            Err(Invalid("The field named 'name' is missing.", "name"))
  {
    MissingNameStep(ctx);
    DeserializeMono(ctx, 3, depth, TestSchema, Obj(map["id" := Num(0), "name" := Null]));
  }
}

=== FILE: schemas.dfy ===
/** Schema trees and the model registry: soap's `SchemaNode`, its type
    objects (`Int`, `String`, `Mapping`, `Sequence`, `Relationship`) and
    the class-level `SchemaModel._models` dictionary, passed explicitly. */
module Schemas {
  import opened Outcomes
  import opened Values

  /** The type object a schema node dispatches to. A relationship names
      its target model and whether it stands for a list of them. */
  datatype Kind =
    | Int
    | String
    | Mapping
    | Sequence
    | Relationship(model: string, uselist: bool)

  /** A schema node: its kind, its name (the key it is read from and
      written to in a mapping), ordered children, and the `missing` policy.
      As in soap, a `missing` of `Null` (Python's None) marks the field
      required; any other value is the default substituted when the field
      is absent. */
  datatype Schema = Node(kind: Kind, name: string, children: seq<Schema>, missing: Json)

  /** Model name to registered root schema. */
  type Registry = map<string, Schema>

  predicate Required(s: Schema) {
    s.missing == Null
  }

  /** The names of a node's children. */
  function Names(cs: seq<Schema>): set<string> {
    if cs == [] then {} else {cs[0].name} + Names(cs[1..])
  }

  lemma {:induction false} NamesMember(cs: seq<Schema>, n: string)
    ensures n in Names(cs) <==> exists i | 0 <= i < |cs| :: cs[i].name == n
  {
    if cs != [] {
      NamesMember(cs[1..], n);
      if n in Names(cs[1..]) {
        var i :| 0 <= i < |cs[1..]| && cs[1..][i].name == n;
        assert cs[i + 1].name == n;
      }
      if exists i | 0 <= i < |cs| :: cs[i].name == n {
        var i :| 0 <= i < |cs| && cs[i].name == n;
        if i > 0 {
          assert cs[1..][i - 1].name == n;
        }
      }
    }
  }

  /** Every `Sequence` in the schema has an element schema (`children[0]`,
      else IndexError on the first item) and every relationship target is
      registered (else KeyError). The targets themselves are not checked, so
      this alone does not rule out either exception; together with a well
      formed registry it does (`Deserialization.Ready`). soap raises only
      when it reaches the offending node. */
  predicate WellFormed(models: Registry, s: Schema)
    decreases s
  {
    && (s.kind.Sequence? ==> |s.children| > 0)
    && (s.kind.Relationship? ==> s.kind.model in models)
    && forall c | c in s.children :: WellFormed(models, c)
  }

  predicate WellFormedRegistry(models: Registry) {
    forall n | n in models :: WellFormed(models, models[n])
  }

  /** `SchemaModel(name, kind, *children)`: a node named after the model,
      with no default. */
  function Model(name: string, kind: Kind, children: seq<Schema>): (m: Schema)
    ensures m.name == name && Required(m)
  {
    Node(kind, name, children, Null)
  }

  /** Registering a model, as the `SchemaModel` constructor does: the
      model becomes reachable under its own name, replacing any earlier
      model of that name; every other entry is unchanged. */
  function Register(models: Registry, m: Schema): (r: Registry)
    ensures r.Keys == models.Keys + {m.name}
    ensures r[m.name] == m
    ensures forall n | n in models && n != m.name :: r[n] == models[n]
  {
    models[m.name := m]
  }

  /** `SchemaNode.get(name)`: the first child with that name, or nothing. */
  method Get(s: Schema, name: string) returns (r: Option<Schema>)
    ensures r.None? <==> name !in Names(s.children)
    ensures r.Some? ==> exists i | 0 <= i < |s.children| ::
      && s.children[i] == r.value
      && r.value.name == name
      && forall k | 0 <= k < i :: s.children[k].name != name
  {
    var i := 0;
    while i < |s.children|
      invariant 0 <= i <= |s.children|
      invariant forall k | 0 <= k < i :: s.children[k].name != name
    {
      if s.children[i].name == name {
        NamesMember(s.children, name);
        return Some(s.children[i]);
      }
      i := i + 1;
    }
    NamesMember(s.children, name);
    return None;
  }
}

=== FILE: values.dfy ===
/** The untyped, JSON-like trees that soap deserializes: the values a JSON
    decoder hands to Python (None, bool, int, str, list, dict). Floats are
    not part of the model. */
module Values {

  datatype Json =
    | Null
    | Bool(b: bool)
    | Num(n: int)
    | Str(s: string)
    | Arr(items: seq<Json>)
    | Obj(fields: map<string, Json>)
}
